=== FILE: README.md ===
# wazuh-http-request: handle caches, cancellable execution and callback translation

A Dafny model of the core of the Wazuh HTTP request library, a C++ layer over
libcurl. It covers:

- the bounded per-thread handler cache (`cURLHandlerCache`), keyed by thread
  and handler type, which evicts its oldest entry before inserting once it
  holds `QUEUE_MAX_SIZE` (5) entries;
- the legacy per-thread easy-handle queue of `cURLWrapper`, keyed by thread
  only, which inserts and then evicts, so it never holds more than 4 entries;
- the rest of `cURLWrapper`: the write callback that fills the response
  buffer, option setting through the option map, header accumulation, and
  `execute` (perform, reset, then throw);
- the MULTI executor `cURLMultiHandler::execute`: its poll loop with the
  shared cancellation flag, the completion-message drain, and the cleanup on
  every way out, including the one path that skips the reset;
- the handler interface (`ICURLHandler`), the `Curl::CurlException` record,
  the URL variants, the default headers and parameter bundles, and the
  `SecureCommunication` builder;
- the two verb facades (`HTTPRequest`, `UNIXSocketRequest`): the builder
  configuration each verb produces and the translation of the execution
  outcome into `onSuccess` / `onError` invocations.

The engine is never modelled. Each engine call's result is an oracle input:

- `MultiHandler.Engine` gives the results of add, perform and wait, the
  running count, each flag reading, the completion messages and the remove
  result;
- the facades take `transfer: RequestConfig -> TransferResult`, which stands
  for the handler factory, the builder and `execute` together;
- `curl_easy_strerror`, `curl_multi_strerror` and JSON `dump()` are function
  parameters.

Threads are explicit `ThreadId` parameters. Each cache call is atomic, which
is what the source's mutex gives. Handles are fresh numbers drawn from a
counter kept in the cache state.

Modules, one per source file, plus `Observation` for the callback invocations both facades share:

| module | file |
|---|---|
| `CurlHandler` | `curl_handler.dfy` |
| `Curl` | `curl_exception.dfy` |
| `HandlerCache` | `handler_cache.dfy` |
| `CurlWrapper` | `curl_wrapper.dfy` |
| `MultiHandler` | `multi_handler.dfy` |
| `Security` | `secure_communication.dfy` |
| `UrlRequest` | `url_request.dfy` |
| `Observation` | `observation.dfy` (the callback invocations a caller can see) |
| `RequestOutcome` | `request_outcome.dfy` (the part both facades share) |
| `HttpRequest` | `http_request.dfy` |
| `UnixSocketRequest` | `unix_socket_request.dfy` |

## Model

| member | source | states |
|---|---|---|
| CurlHandler.NewHandler | include/ICURLHandler.hpp:35-36 | `getHandlerType` returns the tag given at construction and `getHandler` returns the handle it stores |
| Curl.MakeCurlException | shared/curlException.hpp:30-33 | `what()` is the constructor's message and `responseCode()` its code |
| Curl.CurlExceptionFromPair | shared/curlException.hpp:35-38 | the pair constructor takes the message from `.first` and the code from `.second` |
| Curl.OmittedCodeIsZero | shared/curlException.hpp:30 | leaving the code out gives code 0 |
| Curl.PairConstructorAgrees | shared/curlException.hpp:30-38 | the two constructors build the same exception from the same message and code; reading an exception back through the pair constructor rebuilds it |
| HandlerCache.Find | include/curlHandlerCache.hpp:56-60 | the index found is the first entry whose thread AND handler type both match; none is found only when no entry matches |
| HandlerCache.GetCurlHandler | include/curlHandlerCache.hpp:53-82 | a hit returns the first matching entry's handler and leaves the queue unchanged; a miss appends a fresh handler of the requested type under the caller's thread and returns it; on a miss the front entry goes only when 5 or more entries are held, whoever owns it; the surviving entries keep their order; the handler returned always has the requested type and class |
| HandlerCache.Size | include/curlHandlerCache.hpp:89-93 | `size()` is the number of entries and never exceeds 5 for a valid cache |
| HandlerCache.GetCurlHandlerPreservesValid | include/curlHandlerCache.hpp:56-80 | each call keeps at most 5 entries, one entry per (thread, type), and distinct allocated handles |
| HandlerCache.GetCurlHandlerIdempotent | include/curlHandlerCache.hpp:56-65 | a second request by the same thread for the same type returns the same handler and changes nothing |
| HandlerCache.MissReturnsFreshHandle | include/curlHandlerCache.hpp:72-79 | on a miss, the new handler's handle is held by no existing entry |
| HandlerCache.ServeKeepsBound | include/curlHandlerCache.hpp:68-80 | any sequence of requests from any threads keeps the cache valid and its size at most 5 |
| HandlerCache.SizeCountsKeys | include/curlHandlerCache.hpp:89-93 | when keys are unique, the number of entries equals the number of distinct (thread, type) keys |
| CurlWrapper.FindThread | src/curlWrapper.hpp:76-79 | the legacy lookup finds the first entry of the calling thread, whatever its handle |
| CurlWrapper.CurlHandleInit | src/curlWrapper.hpp:73-97 | a hit returns the thread's handle and leaves the queue unchanged; a miss appends a fresh handle, pops the front once the queue reaches 5, and returns the appended handle, which survives the pop; the entries kept from before are the newest ones, in order (first in, first out); at most 4 entries before means at most 4 after |
| CurlWrapper.CurlHandleInitPreservesValid | src/curlWrapper.hpp:81-96 | each call keeps one entry per thread and at most 4 entries |
| CurlWrapper.LegacyQueueStaysBelowQueueSize | src/curlWrapper.hpp:87-93 | whatever the calls, the legacy queue never reaches `QUEUE_SIZE` entries |
| CurlWrapper.WriteData | src/curlWrapper.hpp:56-61 | the callback appends exactly `size*nmemb` characters of the data (as a 64-bit `size_t`) to the buffer, keeps what was there, and returns that count |
| CurlWrapper.DeliverChunks | src/curlWrapper.hpp:56-62 | after one transfer's write callbacks, the response is the concatenation of the chunks in order, and the reported counts add up to its length |
| CurlWrapper.SetOption | src/curlWrapper.hpp:132-170 | an option outside the map throws `out_of_range` before the engine is asked; a mapped option is set as the map translates it; a non-OK engine answer throws `runtime_error` with the message of its overload |
| CurlWrapper.OptionMapInjective | src/curlWrapper.hpp:28-39 | no two option indices map to the same engine option |
| CurlWrapper.OptionMapDomain | src/curlWrapper.hpp:28-39 | exactly the eleven named indices are mapped |
| CurlWrapper.AppendHeader | src/curlWrapper.hpp:176-186 | the first header creates the list; later headers are added at its end, keeping the earlier ones |
| CurlWrapper.AppendHeadersInOrder | src/curlWrapper.hpp:176-186 | appending headers one by one yields exactly those headers in call order, and no calls leave no list |
| CurlWrapper.Execute | src/curlWrapper.hpp:191-201 | the handle is reset after the perform whether it succeeded or not; a non-OK perform then throws with the engine's text for its code |
| MultiHandler.PollLoop | src/curlMultiHandler.hpp:79-103 | the loop goes round again exactly when perform and wait succeed, the running count is non-zero and a fresh flag read is true; it stops as cancelled exactly when the engine was still running; a failed perform or wait raises `runtime_error` with the prefix naming that call; it calls only perform, wait and the flag read; a wait directly follows every perform that succeeded, and the loop ends on a perform only when that perform failed; a failed perform or wait is the last call made; a completed loop ends on its wait without reading the flag, a cancelled one on the flag read; every wait uses 1000 ms and 0 extra descriptors |
| MultiHandler.DrainMessages | src/curlMultiHandler.hpp:105-121 | the drain raises exactly when some DONE message reports a non-OK result, and then raises the `CurlException` of the first such message; otherwise it reads every message and then the final null; a raising drain has read exactly the messages up to and including the first failed one |
| MultiHandler.Execute | src/curlMultiHandler.hpp:64-139 | a failed registration raises at once after remove and reset; the loop body runs at least once; the handle is removed once, only at the end of every finished run, and then reset, except when the normal-exit removal fails, which raises without a reset; the run is still polling exactly when registration succeeded and the loop ran out of engine answers; the whole call trace is pinned on every path: a finished run makes the registration, the loop's calls and the drain's calls, then the removal and the reset unless the removal failed; a loop that throws is followed directly by removal and reset, with no drain; a run still polling has made only the registration and the loop's calls |
| MultiHandler.ReturnsIffCleanRun | src/curlMultiHandler.hpp:66-138 | `execute` returns normally if and only if registration succeeded, the loop ended normally, no DONE message failed and removal succeeded |
| MultiHandler.CancellationRaisesNothing | src/curlMultiHandler.hpp:103-138 | a loop stopped by the flag, with no failed transfer reported and a clean removal, returns normally after remove and reset |
| MultiHandler.CancelledOnEntryRunsOnce | src/curlMultiHandler.hpp:79-103 | a flag already false on entry still lets one perform and one wait run before the condition reads it, and there is no second perform |
| MultiHandler.FailedTransferRaisesCurlException | src/curlMultiHandler.hpp:105-121 | the first failed DONE message raises a `CurlException` whose message is `cURLMultiHandler::execute() failed: ` plus the engine's text and whose code is the result code, after remove and reset |
| MultiHandler.LoopFailureRethrown | src/curlMultiHandler.hpp:123-128 | a perform or wait failure is rethrown unchanged, after remove and reset |
| MultiHandler.PerformsOncePerIteration | src/curlMultiHandler.hpp:79-103 | each loop iteration performs exactly once and makes at most three calls |
| Security.NewSecureCommunication | include/secureCommunication.hpp:36-39 | the constructor stores the CA path and leaves basic auth, certificate and key empty |
| Security.SetClientAuth | include/secureCommunication.hpp:93-99 | sets the certificate and key and changes nothing else |
| Security.SetBasicAuth | include/secureCommunication.hpp:106-111 | sets the basic-auth credentials and changes nothing else |
| Security.BothSettersCompose | test/unit/secureCommunication_test.cpp:44-53 | after both setters all four fields hold what was given, in either order of the calls |
| Security.LastSetterWins | include/secureCommunication.hpp:93-111 | calling a setter twice keeps only the last values |
| UrlRequest.HttpUrl | include/IURLRequest.hpp:112-124 | a TCP URL stores the URL text and has an empty socket path |
| UrlRequest.HttpUnixSocketUrl | include/IURLRequest.hpp:92-107 | a UNIX URL stores both the socket path and the URL text |
| UrlRequest.UrlVariantsDistinct | include/IURLRequest.hpp:92-124 | a TCP URL is never equal to a UNIX URL, and a UNIX URL is built from its own two arguments |
| UrlRequest.DefaultHeadersAreThree | include/IURLRequest.hpp:36-37 | the default header set is exactly the three JSON/UTF-8 header lines, all distinct |
| UrlRequest.HeaderSet | include/IURLRequest.hpp:141 | a header set contains exactly the listed lines and is never larger than the list |
| UrlRequest.DuplicateHeadersCollapse | test/component/component_test.cpp:843-858 | the same header line given twice leaves one header |
| UrlRequest.DefaultRequestParameters | include/IURLRequest.hpp:136-142 | a request naming only its URL sends the empty string body, the default headers and empty credentials |
| RequestOutcome.ErrorReport | src/HTTPRequest.cpp:91-98 | a `CurlException` reaches `onError` with its message and code; any other exception with its message and `NOT_USED` |
| RequestOutcome.Report | src/HTTPRequest.cpp:37-98 | `onSuccess` is called only after a normal return, only once, first, and with the response; a throw from `execute` gives exactly one `onError` and nothing else; a verb that does not report success (download) invokes nothing after a normal return; a second callback happens only when the caller's `onSuccess` throws, and that throw goes through the same two catch clauses (a `CurlException` keeps its code, anything else gets `NOT_USED`) |
| RequestOutcome.ThrowingSuccessKeepsCode | src/HTTPRequest.cpp:87-94 | a `Curl::CurlException` thrown by the caller's `onSuccess` reaches `onError` with its message and its own code |
| RequestOutcome.Observed | include/IURLRequest.hpp:168-175 | an invocation is observed if and only if it reaches one of the caller's own callbacks rather than a default no-op; when all of them do, all are observed, in order |
| RequestOutcome.ObservedDistributes | include/IURLRequest.hpp:168-175 | observation keeps order: what is observed of two runs in sequence is what is observed of the first followed by what is observed of the second |
| RequestOutcome.DefaultCallbacksAreSilent | include/IURLRequest.hpp:168-175 | with the default no-op callbacks nothing is observable, whatever the outcome |
| RequestOutcome.BodyText | src/HTTPRequest.cpp:77-79 | the string body is passed unchanged; the JSON body is serialized with `dump()` |
| RequestOutcome.FromMultiOutcome | src/HTTPRequest.cpp:39-55 | a normal return of the multi executor becomes a completed transfer and its exception is what the facade catches; the transfer has no outcome yet exactly when the executor is still polling |
| RequestOutcome.FromWrapperExecution | src/HTTPRequest.cpp:118-136 | the wrapper's `runtime_error` is what the facade catches; a normal return yields the response |
| HttpRequest.HttpCall | src/HTTPRequest.cpp:23-259 | each verb builds with the URL text, header set, user agent, output file and credentials; `delete_` uses the default factory and the others forward handler type and flag; only POST/PUT/PATCH send a body; a `dump()` that throws is reported with `NOT_USED`; the callbacks follow the outcome and `download` never reports success |
| HttpRequest.DownloadNeverReportsSuccess | src/HTTPRequest.cpp:23-56 | every callback a download invokes is an `onError` |
| HttpRequest.FailureReportsOneError | src/HTTPRequest.cpp:129-136 | a failed transfer of any verb invokes exactly one `onError`, with the code for a `CurlException` and `NOT_USED` otherwise |
| HttpRequest.MultiTransferErrorReachesOnError | test/component/component_test.cpp:320-338 | a multi-handler download whose DONE message fails reaches `onError` with the prefixed engine message and the engine's result code, and nothing else |
| HttpRequest.CancelledDownloadIsSilent | test/component/component_test.cpp:265-275 | a multi-handler download cancelled by its flag, with no failed transfer, invokes no callback at all |
| HttpRequest.DefaultConfigurationForwardsSingle | include/IURLRequest.hpp:153-158 | with the default configuration every verb but delete asks the factory for a SINGLE handler with the literal `true` flag |
| HttpRequest.WrapperFailureReportsNotUsed | src/curlWrapper.hpp:195-200 | a transfer the wrapper fails reaches `onError` with the engine's text and `NOT_USED` |
| UnixSocketRequest.UnixStringCall | src/UNIXSocketRequest.cpp:68-97 | the builder gets `url.url()` and `url.unixSocketPath()`, never headers or a user agent; only POST/PUT/PATCH send the string body; `delete_` uses the default factory; the callbacks follow the outcome and download reports no success |
| UnixSocketRequest.UnixCall | src/UNIXSocketRequest.cpp:48-66 | a string body goes to the string overload with the caller's handler type and flag; a JSON body is dumped and goes to the string overload without them; a `dump()` that throws is reported with `NOT_USED` |
| UnixSocketRequest.HeadersNeverUsed | src/UNIXSocketRequest.cpp:99-123 | two calls that differ only in their header set build the same request and invoke the same callbacks |
| UnixSocketRequest.JsonOverloadIgnoresHandlerType | src/UNIXSocketRequest.cpp:58-65 | a JSON call's request does not depend on the caller's handler type or flag, and uses the declared defaults |
| UnixSocketRequest.SocketPathWired | src/UNIXSocketRequest.cpp:80-85 | over a socket URL, the builder gets exactly the socket path and URL text the URL was built from |
| UnixSocketRequest.DownloadReportsOnlyErrors | src/UNIXSocketRequest.cpp:22-46 | a UNIX download invokes only `onError`, and a `CurlException` keeps its code |

## Left out

- Real libcurl behaviour is out of scope: transfers, TLS, redirects, file writes, wait timing and the choice of HTTP status codes. Every engine answer is an oracle input.
- The single-handler `execute` (`curlSingleHandler.hpp`) is not part of this model. So the interface's abstract `execute` is modelled only for the MULTI variant, and the 404 and `-1` codes the tests expect from single transfers are not derived.
- `factoryRequestImplemetator.hpp`, `urlRequest.hpp` and `IRequestImplementator.hpp` are not part of this model. The builder is a configuration record, and the factory is recorded only by how it is called (`Factory`).
- The full `OPTION_REQUEST_TYPE` enum is in `IRequestImplementator.hpp`, which is not part of this model. Indices outside the map are the `OptUnmapped` constructor.
- The declared defaults of the UNIX string overloads are in a header outside this model. The JSON overloads' delegation is recorded as `CreateWithDeclaredDefaults` rather than as concrete values.
- Concurrency is not modelled: mutexes, interleavings and the atomic flag. Each cache call is atomic, threads are explicit ids, and the flag is one reading per loop iteration.
- The flag a cached multi handler holds is not modelled. The cache builds it with the constructor's default flag argument, and how a caller's flag reaches it lives in code that is not part of this model.
- HandlerCache.GetCurlHandler: the default argument `SINGLE` of include/curlHandlerCache.hpp:53 is not a separate member; a call that omits it is `GetCurlHandler` with `Single`, and every caller in the model passes the type.
- The `invalid_argument` branch of `getCurlHandler` has no model: the handler-type datatype has only the two handled values.
- The legacy `cURLWrapper` constructor is not modelled: its null check on `curl_easy_init()` and its three initial `setOption` calls depend on engine allocation.
- `curl_easy_setopt(CURLOPT_HTTPHEADER)` in the wrapper's `execute` ignores its result. The model records the call but has no failure for it.
- `onError` callbacks are assumed not to throw. Whether a caller's `onSuccess` throws is an input, the same for every response.
- The component tests' `.timeout` field and exceptions escaping the facade do not match the `ConfigurationParameters` of include/IURLRequest.hpp:153-158 and the facade code of src/HTTPRequest.cpp, so they are not modelled.
- JSON serialization is a parameter `dump`, which may throw.
- `CurlHandler.NewHandler`: that no member changes a handler's type after construction is not stated as a lemma. Handler values are immutable datatypes, so this holds by construction.
- `Security.SetClientAuth`, `Security.SetBasicAuth`: both return the updated value, not a reference to the same object. Chaining is modelled as function composition, and object identity is not modelled.
- `CurlWrapper.SetOption`: the `what()` text of `std::out_of_range` from `map::at` is implementation-defined, so it is not modelled.
- `Curl.MakeCurlException`: the C++ `long` code is modelled as an unbounded integer.
- The legacy queue `HANDLER_QUEUE` and its mutex are namespace-scope `static` variables in a header (src/curlWrapper.hpp:41-43), so each translation unit that includes it has its own copy. The model is one such queue; the bound of 4 entries holds per copy, not per process.
- Strings are Unicode scalar sequences, not byte strings. The truncation at the first NUL that `c_str()` and `what()` impose (headers, string options, error messages) is not modelled: `AppendHeader`, `SetOption` with a string value and `ErrorReport` keep the whole text.
- Singletons (`HTTPRequest::instance()`, `cURLHandlerCache::instance()`) are explicit values passed in and out.
- The UNIX-socket facade's header declaration does not match its `.cpp` file. The model follows `src/UNIXSocketRequest.cpp`.

=== FILE: basics.dfy ===
/** Small shared datatypes used across the model. */
module Basics {

  /** An optional value: `None` stands for a null pointer or an absent argument. */
  datatype Option<+T> = None | Some(value: T)
}

=== FILE: curl_exception.dfy ===
/**
 * The exception types of the library (shared/curlException.hpp and the
 * standard exceptions the executors raise), seen through what the callers
 * catch: a message and, for `Curl::CurlException`, a code.
 */
module Curl {

  /** `Curl::CurlException`: a message and a response code (a C++ `long`). */
  datatype CurlException = CurlException(message: string, code: int)

  /** The code the first constructor uses when the caller omits it. */
  const DefaultResponseCode: int := 0

  /** `CurlException(errorMessage, responseCode = 0)`. */
  function MakeCurlException(errorMessage: string, responseCode: int := DefaultResponseCode): (e: CurlException)
    ensures What(e) == errorMessage
    ensures ResponseCode(e) == responseCode
  {
    CurlException(errorMessage, responseCode)
  }

  /** `explicit CurlException(pair)`: `.first` is the message, `.second` the code. */
  function CurlExceptionFromPair(p: (string, int)): (e: CurlException)
    ensures What(e) == p.0
    ensures ResponseCode(e) == p.1
  {
    CurlException(p.0, p.1)
  }

  /** `what()`. */
  function What(e: CurlException): string
  {
    e.message
  }

  /** `responseCode()`. */
  function ResponseCode(e: CurlException): int
  {
    e.code
  }

  /** Omitting the code is the same as passing 0. */
  lemma OmittedCodeIsZero(msg: string)
    ensures ResponseCode(MakeCurlException(msg)) == 0
    ensures MakeCurlException(msg) == MakeCurlException(msg, 0)
  {
  }

  /** The two constructors agree, and reading an exception back through the pair constructor rebuilds it. */
  lemma PairConstructorAgrees(msg: string, code: int, e: CurlException)
    ensures CurlExceptionFromPair((msg, code)) == MakeCurlException(msg, code)
    ensures CurlExceptionFromPair((What(e), ResponseCode(e))) == e
  {
  }

  /**
   * Anything the library throws, as a `catch` clause sees it: either a
   * `Curl::CurlException`, or another `std::exception` with only its `what()`.
   */
  datatype Failure = CurlFailure(exception: CurlException) | StdFailure(what: string)

  /** `what()` of any failure. */
  function FailureMessage(f: Failure): string
  {
    match f
    case CurlFailure(e) => What(e)
    case StdFailure(w) => w
  }
}

=== FILE: curl_handler.dfy ===
/**
 * The handler interface of include/ICURLHandler.hpp: a native easy handle
 * shared between the cache entry and the executor, plus a type tag that is
 * fixed when the handler is built.
 */
module CurlHandler {

  /** The two execution strategies (include/curlHandlerType.hpp). */
  datatype HandlerType = Single | Multi

  /** Abstract identity of one native easy handle; a fresh id stands for a fresh allocation. */
  type Handle = nat

  /** The concrete class that implements the interface. */
  datatype Variant = SingleHandler | MultiHandler

  /**
   * A handler value. Datatype values are immutable, so no operation can change
   * the tag after `NewHandler` built it.
   */
  datatype Handler = Handler(variant: Variant, handlerType: HandlerType, handle: Handle)

  /** The constructor: stores the type tag it is given and the easy handle it allocated. */
  function NewHandler(variant: Variant, handlerType: HandlerType, handle: Handle): (h: Handler)
    ensures GetHandlerType(h) == handlerType
    ensures GetHandler(h) == handle
    ensures h.variant == variant
  {
    Handler(variant, handlerType, handle)
  }

  /** `getHandlerType()`. */
  function GetHandlerType(h: Handler): HandlerType
  {
    h.handlerType
  }

  /** `getHandler()`: the shared easy handle. */
  function GetHandler(h: Handler): Handle
  {
    h.handle
  }
}

=== FILE: curl_wrapper.dfy ===
/**
 * The legacy easy-handle wrapper of src/curlWrapper.hpp: its per-thread
 * handle queue (one per translation unit that includes the header, since the
 * queue is a namespace-scope `static`), the write callback that fills the response buffer,
 * option setting through the option map, header accumulation, and the
 * perform-reset-throw sequence of `execute`.
 */
module CurlWrapper {
  import opened Basics

  /** `CURLE_OK`: the engine's success code. */
  const CurleOk: int := 0

  // ----- curlHandleInit: the legacy per-thread queue -----

  /** `QUEUE_SIZE`. */
  const QueueSize: nat := 5

  type ThreadId = nat

  /** Abstract identity of one `curl_easy_init()` allocation. */
  type EasyHandle = nat

  datatype Entry = Entry(thread: ThreadId, handle: EasyHandle)

  /** `HANDLER_QUEUE`, oldest first, plus the next unused handle id. */
  datatype HandleQueue = HandleQueue(entries: seq<Entry>, nextHandle: EasyHandle)

  const EmptyQueue: HandleQueue := HandleQueue([], 0)

  /** The legacy lookup: by thread only. */
  function FindThread(q: seq<Entry>, thread: ThreadId): (r: Option<nat>)
    ensures r.Some? ==> r.value < |q| && q[r.value].thread == thread
    ensures r.Some? ==> forall k :: 0 <= k < r.value ==> q[k].thread != thread
    ensures r.None? <==> forall k :: 0 <= k < |q| ==> q[k].thread != thread
  {
    if |q| == 0 then None
    else if q[0].thread == thread then Some(0)
    else
      match FindThread(q[1..], thread)
      case None => None
      case Some(i) => Some(i + 1)
  }

  /**
   * `curlHandleInit()` called from `thread`. A miss appends a new handle first
   * and only then drops the front entry if the queue has reached `QUEUE_SIZE`,
   * so the queue never holds more than `QUEUE_SIZE - 1` entries.
   */
  function CurlHandleInit(q: HandleQueue, thread: ThreadId): (r: (HandleQueue, EasyHandle))
    // hit: the queue is untouched and the first entry of the thread is returned
    ensures FindThread(q.entries, thread).Some? ==>
              r.0 == q && r.1 == q.entries[FindThread(q.entries, thread).value].handle
    // miss: a fresh handle, which is the newest entry and survives the pop
    ensures FindThread(q.entries, thread).None? ==>
              && r.1 == q.nextHandle
              && r.0.nextHandle == q.nextHandle + 1
              && |r.0.entries| >= 1
              && r.0.entries[|r.0.entries| - 1] == Entry(thread, r.1)
    // miss: only the oldest entries can go, so the survivors are a suffix of the old queue
    ensures FindThread(q.entries, thread).None? ==>
              && 1 <= |r.0.entries| <= |q.entries| + 1
              && r.0.entries[..|r.0.entries| - 1] == q.entries[|q.entries| - (|r.0.entries| - 1)..]
    // miss: the effective bound is one below QUEUE_SIZE
    ensures FindThread(q.entries, thread).None? && |q.entries| < QueueSize - 1 ==> |r.0.entries| == |q.entries| + 1
    ensures FindThread(q.entries, thread).None? && |q.entries| >= QueueSize - 1 ==> |r.0.entries| == |q.entries|
    ensures |q.entries| <= QueueSize - 1 ==> |r.0.entries| <= QueueSize - 1
  {
    match FindThread(q.entries, thread)
    case Some(i) => (q, q.entries[i].handle)
    case None =>
      var appended := q.entries + [Entry(thread, q.nextHandle)];
      var kept := if QueueSize <= |appended| then appended[1..] else appended;
      (HandleQueue(kept, q.nextHandle + 1), kept[|kept| - 1].handle)
  }

  /** At most one entry per thread, handles allocated before the counter, at most `QUEUE_SIZE - 1` entries. */
  predicate ValidQueue(q: HandleQueue)
  {
    && |q.entries| <= QueueSize - 1
    && (forall i, j :: 0 <= i < j < |q.entries| ==> q.entries[i].thread != q.entries[j].thread)
    && (forall i :: 0 <= i < |q.entries| ==> q.entries[i].handle < q.nextHandle)
  }

  /** A new entry for a thread the queue does not hold, with the next handle, keeps the queue invariant. */
  lemma AppendNewThread(s: seq<Entry>, x: Entry, next: EasyHandle)
    requires forall i, j :: 0 <= i < j < |s| ==> s[i].thread != s[j].thread
    requires forall i :: 0 <= i < |s| ==> s[i].handle < next && s[i].thread != x.thread
    requires x.handle == next
    ensures forall i, j :: 0 <= i < j < |s + [x]| ==> (s + [x])[i].thread != (s + [x])[j].thread
    ensures forall i :: 0 <= i < |s + [x]| ==> (s + [x])[i].handle < next + 1
  {
    var t := s + [x];
    assert forall i :: 0 <= i < |s| ==> t[i] == s[i];
    assert t[|s|] == x;
  }

  /** Each call keeps the legacy queue invariant. */
  lemma CurlHandleInitPreservesValid(q: HandleQueue, thread: ThreadId)
    requires ValidQueue(q)
    ensures ValidQueue(CurlHandleInit(q, thread).0)
  {
    if FindThread(q.entries, thread).None? {
      var r := CurlHandleInit(q, thread).0;
      var x := Entry(thread, q.nextHandle);
      // the survivors: a suffix of the old queue
      var s := r.entries[..|r.entries| - 1];
      var off := |q.entries| - |s|;
      assert s == q.entries[off..];
      forall i, j | 0 <= i < j < |s|
        ensures s[i].thread != s[j].thread
      {
        assert s[i] == q.entries[i + off] && s[j] == q.entries[j + off];
      }
      forall i | 0 <= i < |s|
        ensures s[i].handle < q.nextHandle && s[i].thread != thread
      {
        assert s[i] == q.entries[i + off];
      }
      AppendNewThread(s, x, q.nextHandle);
      assert r.entries == s + [x];
    }
  }

  /** The threads' calls, served one at a time. */
  function ServeThreads(q: HandleQueue, threads: seq<ThreadId>): HandleQueue
    decreases |threads|
  {
    if |threads| == 0 then q else ServeThreads(CurlHandleInit(q, threads[0]).0, threads[1..])
  }

  /** From any valid queue, the legacy queue never reaches `QUEUE_SIZE` entries, whatever the calls. */
  lemma {:induction false} LegacyQueueStaysBelowQueueSize(q: HandleQueue, threads: seq<ThreadId>)
    requires ValidQueue(q)
    ensures ValidQueue(ServeThreads(q, threads))
    ensures |ServeThreads(q, threads).entries| < QueueSize
    decreases |threads|
  {
    if |threads| > 0 {
      CurlHandleInitPreservesValid(q, threads[0]);
      LegacyQueueStaysBelowQueueSize(CurlHandleInit(q, threads[0]).0, threads[1..]);
    }
  }

  // ----- writeData: the response buffer -----

  /** `size_t` arithmetic wraps modulo 2^64. */
  const SizeModulus: nat := 0x1_0000_0000_0000_0000

  /** `size * nmemb` as `size_t` computes it. */
  function ChunkLength(size: nat, nmemb: nat): nat
  {
    (size * nmemb) % SizeModulus
  }

  datatype Written = Written(buffer: string, count: nat)

  /**
   * `writeData(data, size, nmemb, userdata)`: appends `size * nmemb` characters of
   * `data` to the buffer and reports that count back. The engine promises that
   * `data` holds that many characters.
   */
  function WriteData(buffer: string, data: string, size: nat, nmemb: nat): (r: Written)
    requires size < SizeModulus && nmemb < SizeModulus
    requires ChunkLength(size, nmemb) <= |data|
    ensures r.count == ChunkLength(size, nmemb)
    ensures |r.buffer| == |buffer| + r.count
    ensures r.buffer[..|buffer|] == buffer
    ensures r.buffer[|buffer|..] == data[..r.count]
  {
    var n := ChunkLength(size, nmemb);
    Written(buffer + data[..n], n)
  }

  /** The concatenation of the chunks, in order. */
  function Concat(chunks: seq<string>): string
    decreases |chunks|
  {
    if |chunks| == 0 then [] else Concat(chunks[..|chunks| - 1]) + chunks[|chunks| - 1]
  }

  /**
   * One transfer's worth of write callbacks, each chunk delivered with
   * `size == 1` as the engine does: the response is the concatenation of the
   * chunks and every call reports its whole chunk as consumed.
   */
  method DeliverChunks(chunks: seq<string>) returns (response: string, reported: nat)
    requires forall k :: 0 <= k < |chunks| ==> |chunks[k]| < SizeModulus
    ensures response == Concat(chunks)
    ensures reported == |response|
  {
    response := "";
    reported := 0;
    var i := 0;
    while i < |chunks|
      invariant 0 <= i <= |chunks|
      invariant response == Concat(chunks[..i])
      invariant reported == |response|
    {
      var w := WriteData(response, chunks[i], 1, |chunks[i]|);
      assert chunks[i][..w.count] == chunks[i];
      assert chunks[..i + 1][..i] == chunks[..i];
      response := w.buffer;
      reported := reported + w.count;
      i := i + 1;
    }
    assert chunks[..|chunks|] == chunks;
  }

  // ----- setOption: the option map -----

  /** The option indices of the request interface that the wrapper maps. */
  datatype OptionRequestType =
    | OptUrl | OptCaInfo | OptTimeout | OptWriteData | OptUserAgent | OptPostFields
    | OptWriteFunction | OptPostFieldSize | OptCustomRequest | OptUnixSocketPath | OptFailOnError
      /** Any other value of the interface's enum, absent from the map. */
    | OptUnmapped(index: nat)

  /** The engine options they stand for. */
  datatype CurlOption =
    | CurloptUrl | CurloptCaInfo | CurloptTimeout | CurloptWriteData | CurloptUserAgent | CurloptPostFields
    | CurloptWriteFunction | CurloptPostFieldSize | CurloptCustomRequest | CurloptUnixSocketPath | CurloptFailOnError

  /** `OPTION_REQUEST_TYPE_MAP`. */
  const OptionRequestTypeMap: map<OptionRequestType, CurlOption> := map[
    OptUrl := CurloptUrl,
    OptCaInfo := CurloptCaInfo,
    OptTimeout := CurloptTimeout,
    OptWriteData := CurloptWriteData,
    OptUserAgent := CurloptUserAgent,
    OptPostFields := CurloptPostFields,
    OptWriteFunction := CurloptWriteFunction,
    OptPostFieldSize := CurloptPostFieldSize,
    OptCustomRequest := CurloptCustomRequest,
    OptUnixSocketPath := CurloptUnixSocketPath,
    OptFailOnError := CurloptFailOnError
  ]

  /** The three `setOption` overloads, by the kind of value they pass. */
  datatype OptionValue = PointerValue | StringValue(text: string) | LongValue(number: int)

  /** `std::out_of_range` from the map lookup, or `std::runtime_error` from a failed set. */
  datatype SetOptionError = OutOfRange | RuntimeError(what: string)

  datatype SetOptionResult = OptionSet(option: CurlOption, value: OptionValue) | SetOptionFailed(error: SetOptionError)

  /** The messages the overloads throw when the engine refuses the option. */
  const PointerSetFailed: string := "cURL set option failed"
  const ValueSetFailed: string := "cURLWrapper::setOption() failed"

  /**
   * `setOption(optIndex, value)` with the engine answering `setCode`: the index
   * is translated through the map (an unmapped index throws before the engine
   * is asked), then a non-OK answer throws `std::runtime_error`.
   */
  function SetOption(opt: OptionRequestType, value: OptionValue, setCode: int): (r: SetOptionResult)
    ensures r.OptionSet? <==> !opt.OptUnmapped? && setCode == CurleOk
    ensures r.OptionSet? ==> r.value == value && r.option == OptionRequestTypeMap[opt]
    ensures opt.OptUnmapped? ==> r == SetOptionFailed(OutOfRange)
    ensures !opt.OptUnmapped? && setCode != CurleOk ==>
              r == SetOptionFailed(RuntimeError(if value.PointerValue? then PointerSetFailed else ValueSetFailed))
  {
    if opt !in OptionRequestTypeMap then SetOptionFailed(OutOfRange)
    else if setCode != CurleOk then
      SetOptionFailed(RuntimeError(if value.PointerValue? then PointerSetFailed else ValueSetFailed))
    else OptionSet(OptionRequestTypeMap[opt], value)
  }

  /** The map is one-to-one: different indices never reach the same engine option. */
  lemma OptionMapInjective(a: OptionRequestType, b: OptionRequestType)
    requires a in OptionRequestTypeMap && b in OptionRequestTypeMap
    requires OptionRequestTypeMap[a] == OptionRequestTypeMap[b]
    ensures a == b
  {
  }

  /** Exactly the eleven named indices are mapped. */
  lemma OptionMapDomain(opt: OptionRequestType)
    ensures opt in OptionRequestTypeMap <==> !opt.OptUnmapped?
  {
  }

  // ----- appendHeader: the header list -----

  /** `m_curlHeaders`: `None` until the first header creates the list. */
  type HeaderList = Option<seq<string>>

  /** `appendHeader(header)`. */
  function AppendHeader(list: HeaderList, header: string): (r: HeaderList)
    ensures r.Some?
    ensures list.None? ==> r.value == [header]
    ensures list.Some? ==> |r.value| == |list.value| + 1 && r.value[..|list.value|] == list.value
    ensures r.value[|r.value| - 1] == header
  {
    match list
    case None => Some([header])
    case Some(hs) => Some(hs + [header])
  }

  /** The list after appending `headers` one by one. */
  function AppendHeaders(list: HeaderList, headers: seq<string>): HeaderList
    decreases |headers|
  {
    if |headers| == 0 then list else AppendHeaders(AppendHeader(list, headers[0]), headers[1..])
  }

  /** Appending to a fresh wrapper yields exactly the headers in call order; no call leaves no list. */
  lemma {:induction false} AppendHeadersInOrder(list: HeaderList, headers: seq<string>)
    ensures list.Some? ==> AppendHeaders(list, headers) == Some(list.value + headers)
    ensures list.None? && |headers| == 0 ==> AppendHeaders(list, headers).None?
    ensures list.None? && |headers| > 0 ==> AppendHeaders(list, headers) == Some(headers)
    decreases |headers|
  {
    if |headers| > 0 {
      var next := AppendHeader(list, headers[0]);
      AppendHeadersInOrder(next, headers[1..]);
      assert AppendHeaders(list, headers) == AppendHeaders(next, headers[1..]);
      if list.Some? {
        assert next == Some(list.value + [headers[0]]);
        assert list.value + headers == (list.value + [headers[0]]) + headers[1..];
      } else {
        assert next == Some([headers[0]]);
        assert headers == [headers[0]] + headers[1..];
      }
    } else if list.Some? {
      assert list.value + headers == list.value;
    }
  }

  // ----- execute: perform, reset, then throw -----

  /** The engine calls `execute` makes, in order. */
  datatype EasyCall = SetHttpHeader(list: HeaderList) | Perform | Reset

  datatype WrapperExecution = WrapperExecution(calls: seq<EasyCall>, error: Option<string>)

  /**
   * `execute()` with the engine's `curl_easy_perform` answering `performCode`:
   * the header list is installed, the transfer runs, the handle is reset
   * whatever the result, and a non-OK result then throws `std::runtime_error`
   * carrying the engine's text for it.
   */
  function Execute(list: HeaderList, performCode: int, easyStrError: int -> string): (r: WrapperExecution)
    ensures |r.calls| == 3 && r.calls[0] == SetHttpHeader(list) && r.calls[1] == Perform
    ensures r.calls[|r.calls| - 1] == Reset
    ensures r.error.Some? <==> performCode != CurleOk
    ensures r.error.Some? ==> r.error.value == easyStrError(performCode)
  {
    var calls := [SetHttpHeader(list), Perform, Reset];
    if performCode != CurleOk then WrapperExecution(calls, Some(easyStrError(performCode)))
    else WrapperExecution(calls, None)
  }
}

=== FILE: handler_cache.dfy ===
/**
 * The bounded per-thread handler cache of include/curlHandlerCache.hpp.
 * Each call is atomic (the source holds a mutex for its whole duration), the
 * calling thread is an explicit parameter, and the cache state carries the
 * counter from which fresh handle ids are drawn.
 */
module HandlerCache {
  import opened Basics
  import opened CurlHandler

  /** `QUEUE_MAX_SIZE`. */
  const QueueMaxSize: nat := 5

  type ThreadId = nat

  /** One queue element: the owning thread and the shared handler. */
  datatype Entry = Entry(thread: ThreadId, handler: Handler)

  /** The queue, oldest entry first, and the next unused handle id. */
  datatype Cache = Cache(queue: seq<Entry>, nextHandle: Handle)

  const EmptyCache: Cache := Cache([], 0)

  /** The lookup predicate of `getCurlHandler`: same thread AND same handler type. */
  predicate Matches(e: Entry, thread: ThreadId, t: HandlerType)
  {
    e.thread == thread && GetHandlerType(e.handler) == t
  }

  /** The concrete class the cache builds for each type. */
  function VariantFor(t: HandlerType): Variant
  {
    match t
    case Single => SingleHandler
    case Multi => MultiHandler
  }

  /** At most one entry per (thread, type) pair. */
  predicate UniqueKeys(q: seq<Entry>)
  {
    forall i, j :: 0 <= i < j < |q| ==> q[i].thread != q[j].thread || q[i].handler.handlerType != q[j].handler.handlerType
  }

  /** Every handle in the queue was allocated before `nextHandle`, and no two entries share one. */
  predicate HandlesAllocated(c: Cache)
  {
    && (forall i :: 0 <= i < |c.queue| ==> c.queue[i].handler.handle < c.nextHandle)
    && (forall i, j :: 0 <= i < j < |c.queue| ==> c.queue[i].handler.handle != c.queue[j].handler.handle)
  }

  /** Every handler is of the class its tag names. */
  predicate TagsConsistent(q: seq<Entry>)
  {
    forall i :: 0 <= i < |q| ==> q[i].handler.variant == VariantFor(q[i].handler.handlerType)
  }

  /** The invariant every reachable cache keeps. */
  predicate Valid(c: Cache)
  {
    && |c.queue| <= QueueMaxSize
    && UniqueKeys(c.queue)
    && HandlesAllocated(c)
    && TagsConsistent(c.queue)
  }

  /** `std::find_if` over the queue: the index of the first matching entry, if any. */
  function Find(q: seq<Entry>, thread: ThreadId, t: HandlerType): (r: Option<nat>)
    ensures r.Some? ==> r.value < |q| && Matches(q[r.value], thread, t)
    ensures r.Some? ==> forall k :: 0 <= k < r.value ==> !Matches(q[k], thread, t)
    ensures r.None? <==> forall k :: 0 <= k < |q| ==> !Matches(q[k], thread, t)
  {
    if |q| == 0 then None
    else if Matches(q[0], thread, t) then Some(0)
    else
      match Find(q[1..], thread, t)
      case None => None
      case Some(i) => Some(i + 1)
  }

  /**
   * `getCurlHandler(curlHandlerType)` called from `thread`: the new cache and
   * the handler returned. A hit returns the cached handler; a miss drops the
   * oldest entry when the queue is full, then appends a freshly built handler.
   */
  function GetCurlHandler(c: Cache, thread: ThreadId, t: HandlerType): (r: (Cache, Handler))
    // the handler returned always carries the requested type and the matching class
    ensures GetHandlerType(r.1) == t
    ensures TagsConsistent(c.queue) ==> r.1.variant == VariantFor(t)
    // hit: the queue is untouched and the first matching entry's handler is returned
    ensures Find(c.queue, thread, t).Some? ==> r.0 == c && r.1 == c.queue[Find(c.queue, thread, t).value].handler
    // miss: a fresh handler, appended at the back under the caller's thread
    ensures Find(c.queue, thread, t).None? ==>
              && GetHandler(r.1) == c.nextHandle
              && r.0.nextHandle == c.nextHandle + 1
              && |r.0.queue| >= 1
              && r.0.queue[|r.0.queue| - 1] == Entry(thread, r.1)
    // miss: the oldest entry goes only when the queue was full, whatever its owner
    ensures Find(c.queue, thread, t).None? && |c.queue| >= QueueMaxSize ==> |r.0.queue| == |c.queue|
    ensures Find(c.queue, thread, t).None? && |c.queue| < QueueMaxSize ==> |r.0.queue| == |c.queue| + 1
    // miss: the surviving entries are a suffix of the old queue, in their old order
    ensures Find(c.queue, thread, t).None? ==>
              |r.0.queue| - 1 <= |c.queue| && r.0.queue[..|r.0.queue| - 1] == c.queue[|c.queue| - (|r.0.queue| - 1)..]
  {
    match Find(c.queue, thread, t)
    case Some(i) => (c, c.queue[i].handler)
    case None => Insert(c, thread, t)
  }

  /** The miss path: evict the front when full, then append a new handler of the requested type. */
  function Insert(c: Cache, thread: ThreadId, t: HandlerType): (Cache, Handler)
  {
    var kept := if QueueMaxSize <= |c.queue| then c.queue[1..] else c.queue;
    var handler := NewHandler(VariantFor(t), t, c.nextHandle);
    (Cache(kept + [Entry(thread, handler)], c.nextHandle + 1), handler)
  }

  /** `size()`: the number of entries, never above the capacity for a valid cache. */
  function Size(c: Cache): (n: nat)
    ensures n == |c.queue|
    ensures Valid(c) ==> n <= QueueMaxSize
  {
    |c.queue|
  }

  /** Appending an entry whose key is absent keeps the keys unique. */
  lemma AppendKeepsUniqueKeys(kept: seq<Entry>, e: Entry)
    requires UniqueKeys(kept)
    requires forall k :: 0 <= k < |kept| ==> !Matches(kept[k], e.thread, e.handler.handlerType)
    ensures UniqueKeys(kept + [e])
  {
    var q := kept + [e];
    forall i, j | 0 <= i < j < |q|
      ensures q[i].thread != q[j].thread || q[i].handler.handlerType != q[j].handler.handlerType
    {
      if j == |kept| {
        assert q[i] == kept[i] && q[j] == e;
        assert !Matches(kept[i], e.thread, e.handler.handlerType);
      } else {
        assert q[i] == kept[i] && q[j] == kept[j];
      }
    }
  }

  /** Appending an entry with a fresh handle keeps handles allocated and distinct. */
  lemma AppendKeepsHandlesAllocated(kept: seq<Entry>, e: Entry, next: Handle)
    requires HandlesAllocated(Cache(kept, next))
    requires e.handler.handle == next
    ensures HandlesAllocated(Cache(kept + [e], next + 1))
  {
    var q := kept + [e];
    forall i, j | 0 <= i < j < |q| ensures q[i].handler.handle != q[j].handler.handle {
      assert q[i] == kept[i];
      if j < |kept| { assert q[j] == kept[j]; }
    }
  }

  /** Dropping the front entry keeps every invariant but the bound, which it only helps. */
  lemma DropFrontKeepsValid(c: Cache)
    requires Valid(c)
    requires |c.queue| > 0
    ensures Valid(Cache(c.queue[1..], c.nextHandle))
  {
    var q := c.queue[1..];
    assert forall k :: 0 <= k < |q| ==> q[k] == c.queue[k + 1];
  }

  /** The miss path keeps the cache invariant. */
  lemma InsertPreservesValid(c: Cache, thread: ThreadId, t: HandlerType)
    requires Valid(c)
    requires Find(c.queue, thread, t).None?
    ensures Valid(Insert(c, thread, t).0)
  {
    var kept := if QueueMaxSize <= |c.queue| then c.queue[1..] else c.queue;
    if QueueMaxSize <= |c.queue| {
      DropFrontKeepsValid(c);
      assert forall k :: 0 <= k < |kept| ==> kept[k] == c.queue[k + 1];
    }
    var h := NewHandler(VariantFor(t), t, c.nextHandle);
    var e := Entry(thread, h);
    assert Valid(Cache(kept, c.nextHandle));
    assert forall k :: 0 <= k < |kept| ==> !Matches(kept[k], thread, t);
    AppendKeepsUniqueKeys(kept, e);
    AppendKeepsHandlesAllocated(kept, e, c.nextHandle);
    assert Insert(c, thread, t).0 == Cache(kept + [e], c.nextHandle + 1);
  }

  /** Every call keeps the cache invariant: bound, one entry per key, fresh distinct handles. */
  lemma GetCurlHandlerPreservesValid(c: Cache, thread: ThreadId, t: HandlerType)
    requires Valid(c)
    ensures Valid(GetCurlHandler(c, thread, t).0)
    ensures Size(GetCurlHandler(c, thread, t).0) <= QueueMaxSize
  {
    if Find(c.queue, thread, t).None? {
      InsertPreservesValid(c, thread, t);
    }
  }

  /** Asking twice from the same thread for the same type returns the same handler and changes nothing. */
  lemma GetCurlHandlerIdempotent(c: Cache, thread: ThreadId, t: HandlerType)
    ensures var (c1, h1) := GetCurlHandler(c, thread, t);
            GetCurlHandler(c1, thread, t) == (c1, h1)
  {
    var (c1, h1) := GetCurlHandler(c, thread, t);
    if Find(c.queue, thread, t).None? {
      var n := |c1.queue|;
      assert forall k :: 0 <= k < n - 1 ==> c1.queue[k] in c.queue;
      assert Find(c1.queue, thread, t) == Some(n - 1);
    }
  }

  /** A miss never hands out a handle that some entry already holds. */
  lemma MissReturnsFreshHandle(c: Cache, thread: ThreadId, t: HandlerType)
    requires Valid(c)
    requires Find(c.queue, thread, t).None?
    ensures forall i :: 0 <= i < |c.queue| ==> c.queue[i].handler.handle != GetHandler(GetCurlHandler(c, thread, t).1)
  {
  }

  /** A request as it reaches the cache: the calling thread and the requested type. */
  datatype Request = Request(thread: ThreadId, handlerType: HandlerType)

  /** The cache after serving `reqs` one at a time, in order. */
  function Serve(c: Cache, reqs: seq<Request>): Cache
    decreases |reqs|
  {
    if |reqs| == 0 then c
    else Serve(GetCurlHandler(c, reqs[0].thread, reqs[0].handlerType).0, reqs[1..])
  }

  /**
   * However many threads call, in any order, the cache never grows beyond
   * `QUEUE_MAX_SIZE` and keeps one entry per (thread, type).
   */
  lemma {:induction false} ServeKeepsBound(c: Cache, reqs: seq<Request>)
    requires Valid(c)
    ensures Valid(Serve(c, reqs))
    ensures Size(Serve(c, reqs)) <= QueueMaxSize
    decreases |reqs|
  {
    if |reqs| > 0 {
      GetCurlHandlerPreservesValid(c, reqs[0].thread, reqs[0].handlerType);
      ServeKeepsBound(GetCurlHandler(c, reqs[0].thread, reqs[0].handlerType).0, reqs[1..]);
    }
  }

  /** The lookup key of an entry. */
  function Key(e: Entry): (ThreadId, HandlerType)
  {
    (e.thread, e.handler.handlerType)
  }

  /** The set of (thread, type) keys present in the queue. */
  function Keys(q: seq<Entry>): set<(ThreadId, HandlerType)>
    decreases |q|
  {
    if |q| == 0 then {} else Keys(q[..|q| - 1]) + {Key(q[|q| - 1])}
  }

  /** A key is present exactly when some entry carries it. */
  lemma {:induction false} KeysMembership(q: seq<Entry>, k: (ThreadId, HandlerType))
    ensures k in Keys(q) <==> exists i :: 0 <= i < |q| && Key(q[i]) == k
    decreases |q|
  {
    if |q| > 0 {
      var init := q[..|q| - 1];
      KeysMembership(init, k);
      if exists i :: 0 <= i < |init| && Key(init[i]) == k {
        var i :| 0 <= i < |init| && Key(init[i]) == k;
        assert Key(q[i]) == k;
      }
      if exists i :: 0 <= i < |q| && Key(q[i]) == k {
        var i :| 0 <= i < |q| && Key(q[i]) == k;
        if i < |init| { assert Key(init[i]) == k; }
      }
    }
  }

  /** For a valid cache, `size()` equals the number of distinct (thread, type) keys it holds. */
  lemma {:induction false} SizeCountsKeys(q: seq<Entry>)
    requires UniqueKeys(q)
    ensures |Keys(q)| == |q|
    decreases |q|
  {
    if |q| > 0 {
      var last := |q| - 1;
      var init := q[..last];
      assert UniqueKeys(init);
      SizeCountsKeys(init);
      KeysMembership(init, Key(q[last]));
      assert Key(q[last]) !in Keys(init);
    }
  }
}

=== FILE: http_request.dfy ===
/**
 * The TCP facade of src/HTTPRequest.cpp: each verb reads the three parameter
 * bundles, configures the matching request builder, executes it, and turns
 * the outcome into callbacks. `transfer` stands for building, executing and
 * reading the response of the configured request.
 */
module HttpRequest {
  import opened Basics
  import opened Curl
  import opened CurlHandler
  import opened UrlRequest
  import opened RequestOutcome
  import opened Observation
  import MultiHandler
  import CurlWrapper

  /** The configuration a verb call hands to the builder once its body (if any) is serialized. */
  function HttpConfig(verb: Verb, req: RequestParameters, post: PostRequestParameters,
                      conf: ConfigurationParameters, postData: Option<string>): RequestConfig
  {
    RequestConfig(
      KindOf(verb),
      GetUrl(req.url),
      None,
      postData,
      Some(req.httpHeaders),
      Some(conf.userAgent),
      post.outputFile,
      req.secureCommunication,
      if verb == Delete then DefaultFactory else Create(conf.handlerType, conf.shouldRun))
  }

  /** `HTTPRequest::<verb>(requestParameters, postRequestParameters, configurationParameters)`. */
  function HttpCall(verb: Verb, req: RequestParameters, post: PostRequestParameters, conf: ConfigurationParameters,
                    dump: JsonDoc -> DumpResult, transfer: RequestConfig -> TransferResult): (r: Invocation)
    // the builder gets the URL text, the header set, the user agent, the output file and the credentials
    ensures r.config.Some? ==>
              && r.config.value.kind == KindOf(verb)
              && r.config.value.url == GetUrl(req.url)
              && r.config.value.unixSocketPath.None?
              && r.config.value.headers == Some(req.httpHeaders)
              && r.config.value.userAgent == Some(conf.userAgent)
              && r.config.value.outputFile == post.outputFile
              && r.config.value.secure == req.secureCommunication
    // delete ignores the handler type and the flag; every other verb forwards both
    ensures r.config.Some? ==>
              r.config.value.factory == if verb == Delete then DefaultFactory else Create(conf.handlerType, conf.shouldRun)
    // POST, PUT and PATCH send the string unchanged or the JSON dumped; the others send nothing
    ensures !SendsBody(verb) ==> r.config.Some? && r.config.value.postData.None?
    ensures SendsBody(verb) && BodyText(req.data, dump).Dumped? ==>
              r.config.Some? && r.config.value.postData == Some(BodyText(req.data, dump).text)
    // a dump that throws is reported before any request is built
    ensures SendsBody(verb) && BodyText(req.data, dump).DumpThrew? ==>
              r == Invocation(None, [OnError(BodyText(req.data, dump).what, NotUsed)])
    // once built, the callbacks follow the transfer outcome; download never reports success
    ensures r.config.Some? ==> r.callbacks == Report(transfer(r.config.value), verb != Download, post.onSuccess)
  {
    if SendsBody(verb) then
      match BodyText(req.data, dump)
      case DumpThrew(w) => Invocation(None, [OnError(w, NotUsed)])
      case Dumped(text) =>
        var config := HttpConfig(verb, req, post, conf, Some(text));
        Invocation(Some(config), Report(transfer(config), true, post.onSuccess))
    else
      var config := HttpConfig(verb, req, post, conf, None);
      Invocation(Some(config), Report(transfer(config), verb != Download, post.onSuccess))
  }

  /** A download never calls `onSuccess`, whatever happens. */
  lemma DownloadNeverReportsSuccess(req: RequestParameters, post: PostRequestParameters, conf: ConfigurationParameters,
                                    dump: JsonDoc -> DumpResult, transfer: RequestConfig -> TransferResult)
    ensures forall k :: 0 <= k < |HttpCall(Download, req, post, conf, dump, transfer).callbacks| ==>
              HttpCall(Download, req, post, conf, dump, transfer).callbacks[k].OnError?
  {
  }

  /**
   * Any verb whose transfer throws reports exactly one error: the exception's
   * message with its code for a `Curl::CurlException`, with `NOT_USED` otherwise.
   */
  lemma FailureReportsOneError(verb: Verb, req: RequestParameters, post: PostRequestParameters, conf: ConfigurationParameters,
                               dump: JsonDoc -> DumpResult, transfer: RequestConfig -> TransferResult)
    requires HttpCall(verb, req, post, conf, dump, transfer).config.Some?
    requires transfer(HttpCall(verb, req, post, conf, dump, transfer).config.value).Threw?
    ensures var f := transfer(HttpCall(verb, req, post, conf, dump, transfer).config.value).failure;
            HttpCall(verb, req, post, conf, dump, transfer).callbacks
            == [OnError(FailureMessage(f), if f.CurlFailure? then ResponseCode(f.exception) else NotUsed)]
  {
  }

  /**
   * A multi-handler download whose transfer reports a failed DONE message
   * reaches `onError` with the executor's prefixed message and the engine's
   * result code, and with nothing else.
   */
  lemma MultiTransferErrorReachesOnError(req: RequestParameters, post: PostRequestParameters, flag: FlagCell,
                                         dump: JsonDoc -> DumpResult, transfer: RequestConfig -> TransferResult,
                                         e: MultiHandler.Engine, response: string, j: nat)
    requires e.addCode == MultiHandler.CurlmOk
    requires MultiHandler.PollLoop(e, 0).end.Finished?
    requires j < |e.messages| && MultiHandler.FailedDone(e.messages[j])
    requires forall m :: 0 <= m < j ==> !MultiHandler.FailedDone(e.messages[m])
    requires forall c :: transfer(c) == FromMultiOutcome(MultiHandler.Execute(e).outcome, response)
    ensures HttpCall(Download, req, post, ConfigurationParameters(Multi, flag, ""), dump, transfer).callbacks
            == [OnError(MultiHandler.ExecuteFailed + e.easyStrError(e.messages[j].result), e.messages[j].result)]
  {
    MultiHandler.FailedTransferRaisesCurlException(e, j);
    var f := MultiHandler.Execute(e).outcome.failure;
    var conf := ConfigurationParameters(Multi, flag, "");
    DownloadOutcomeReported(req, post, conf, dump, transfer, Threw(f));
  }

  /** What a download reports is decided by its transfer's outcome alone. */
  lemma DownloadOutcomeReported(req: RequestParameters, post: PostRequestParameters, conf: ConfigurationParameters,
                                dump: JsonDoc -> DumpResult, transfer: RequestConfig -> TransferResult, t: TransferResult)
    requires transfer(HttpConfig(Download, req, post, conf, None)) == t
    ensures t.Threw? ==> HttpCall(Download, req, post, conf, dump, transfer).callbacks == [ErrorReport(t.failure)]
    ensures t.Completed? || t.Pending? ==> HttpCall(Download, req, post, conf, dump, transfer).callbacks == []
  {
  }

  /**
   * A multi-handler download cancelled by its flag, with no failed transfer
   * reported, ends without any callback: the caller sees neither success nor error.
   */
  lemma CancelledDownloadIsSilent(req: RequestParameters, post: PostRequestParameters, flag: FlagCell,
                                  dump: JsonDoc -> DumpResult, transfer: RequestConfig -> TransferResult,
                                  e: MultiHandler.Engine, response: string)
    requires e.addCode == MultiHandler.CurlmOk
    requires MultiHandler.PollLoop(e, 0).end == MultiHandler.Finished(true)
    requires forall j :: 0 <= j < |e.messages| ==> !MultiHandler.FailedDone(e.messages[j])
    requires e.removeCode == MultiHandler.CurlmOk
    requires forall c :: transfer(c) == FromMultiOutcome(MultiHandler.Execute(e).outcome, response)
    ensures HttpCall(Download, req, post, ConfigurationParameters(Multi, flag, ""), dump, transfer).callbacks == []
  {
    MultiHandler.CancellationRaisesNothing(e);
    DownloadOutcomeReported(req, post, ConfigurationParameters(Multi, flag, ""), dump, transfer, Completed(response));
  }

  /** With the default configuration every verb but delete asks the factory for a single handler and the literal flag. */
  lemma DefaultConfigurationForwardsSingle(verb: Verb, req: RequestParameters, post: PostRequestParameters,
                                           dump: JsonDoc -> DumpResult, transfer: RequestConfig -> TransferResult)
    requires verb != Delete
    requires HttpCall(verb, req, post, DefaultConfigurationParameters, dump, transfer).config.Some?
    ensures HttpCall(verb, req, post, DefaultConfigurationParameters, dump, transfer).config.value.factory
            == Create(Single, LiteralTrue)
  {
  }

  /**
   * A transfer that the wrapper's `execute` fails reaches `onError` with the
   * engine's text and `NOT_USED`: its `std::runtime_error` carries no code.
   */
  lemma WrapperFailureReportsNotUsed(verb: Verb, req: RequestParameters, post: PostRequestParameters, conf: ConfigurationParameters,
                                     dump: JsonDoc -> DumpResult, transfer: RequestConfig -> TransferResult,
                                     headers: CurlWrapper.HeaderList, performCode: int, easyStrError: int -> string,
                                     response: string)
    requires performCode != CurlWrapper.CurleOk
    requires HttpCall(verb, req, post, conf, dump, transfer).config.Some?
    requires forall c :: transfer(c) == FromWrapperExecution(CurlWrapper.Execute(headers, performCode, easyStrError), response)
    ensures HttpCall(verb, req, post, conf, dump, transfer).callbacks == [OnError(easyStrError(performCode), NotUsed)]
  {
  }
}

=== FILE: multi_handler.dfy ===
/**
 * `cURLMultiHandler::execute` (src/curlMultiHandler.hpp): register the easy
 * handle with the multi interface, poll perform+wait until the transfer ends
 * or the shared flag turns false, drain the completion messages, and clean up
 * on every way out.
 *
 * The engine is an oracle: the result of every call the loop makes is read
 * from an `Engine` record, one `Step` per loop iteration, and each step also
 * carries the value the flag holds when that iteration's condition reads it.
 */
module MultiHandler {
  import opened Basics
  import opened Curl

  /** `CURLM_OK` and `CURLE_OK`. */
  const CurlmOk: int := 0
  const CurleOk: int := 0

  /** `CURL_MULTI_HANDLER_TIMEOUT_MS` and `CURL_MULTI_HANDLER_EXTRA_FDS`. */
  const TimeoutMs: int := 1000
  const ExtraFds: int := 0

  /** The text every error raised by `execute` starts with. */
  const ExecuteFailed: string := "cURLMultiHandler::execute() failed: "

  /** One loop iteration as the engine answers it. */
  datatype Step = Step(
    performCode: int,   // result of curl_multi_perform
    stillRunning: int,  // the running count it reports
    waitCode: int,      // result of curl_multi_wait
    shouldRun: bool     // what m_shouldRun.load() returns if the condition reads it
  )

  datatype MessageKind = Done | OtherMessage

  /** One entry of the completion-message queue. */
  datatype Message = Message(kind: MessageKind, result: int)

  /** Everything the engine answers during one `execute` call. */
  datatype Engine = Engine(
    addCode: int,                   // result of curl_multi_add_handle
    steps: seq<Step>,               // one per iteration, as long as the oracle goes
    messages: seq<Message>,         // what curl_multi_info_read returns before null
    removeCode: int,                // result of the normal-exit curl_multi_remove_handle
    multiStrError: int -> string,   // curl_multi_strerror
    easyStrError: int -> string     // curl_easy_strerror
  )

  /** The calls `execute` makes, in order. */
  datatype Call = AddHandle | Perform | Wait(extraFds: int, timeoutMs: int) | LoadFlag | InfoRead | RemoveHandle | Reset

  /**
   * How `execute` ends: it returns, it throws, or it is still polling when the
   * oracle runs out (a transfer that never ends and is never cancelled polls forever).
   */
  datatype Outcome = Returned | Raised(failure: Failure) | StillPolling

  datatype Execution = Execution(calls: seq<Call>, outcome: Outcome)

  // ----- the poll loop -----

  /** The loop body and condition at one step let the loop go round again. */
  predicate Continues(s: Step)
  {
    s.performCode == CurlmOk && s.waitCode == CurlmOk && s.stillRunning != 0 && s.shouldRun
  }

  /** How the loop ended: normally (completed or cancelled), by a throw, or not within the oracle. */
  datatype LoopEnd = Finished(cancelled: bool) | LoopFailed(failure: Failure) | OutOfSteps

  datatype Loop = Loop(calls: seq<Call>, iterations: nat, end: LoopEnd)

  /** The calls of one iteration that gets past its wait. */
  const WaitCall: Call := Wait(ExtraFds, TimeoutMs)

  /** The calls the poll loop makes: performs, the fixed wait and flag reads, and nothing else. */
  predicate LoopCalls(calls: seq<Call>)
  {
    forall k :: 0 <= k < |calls| ==> calls[k] == Perform || calls[k] == WaitCall || calls[k] == LoadFlag
  }

  /** Every perform but a last one is followed by the wait. */
  predicate WaitFollowsPerform(calls: seq<Call>)
  {
    forall k :: 0 <= k < |calls| - 1 && calls[k] == Perform ==> calls[k + 1] == WaitCall
  }

  /** A full iteration in front of the rest of the loop keeps both shapes, and the last call. */
  lemma IterationThenRest(rest: seq<Call>)
    requires LoopCalls(rest) && WaitFollowsPerform(rest)
    ensures LoopCalls([Perform, WaitCall, LoadFlag] + rest)
    ensures WaitFollowsPerform([Perform, WaitCall, LoadFlag] + rest)
    ensures |rest| >= 1 ==> ([Perform, WaitCall, LoadFlag] + rest)[|rest| + 2] == rest[|rest| - 1]
  {
    var calls := [Perform, WaitCall, LoadFlag] + rest;
    assert forall k :: 3 <= k < |calls| ==> calls[k] == rest[k - 3];
  }

  /** The `do { perform; wait } while (stillRunning && m_shouldRun.load())` loop, from step `i`. */
  function PollLoop(e: Engine, i: nat): (r: Loop)
    requires i <= |e.steps|
    // the loop went round exactly while the previous iterations allowed it
    ensures r.end != OutOfSteps ==> 1 <= r.iterations && i + r.iterations <= |e.steps|
    ensures r.end != OutOfSteps ==> forall k :: i <= k < i + r.iterations - 1 ==> Continues(e.steps[k])
    ensures r.end != OutOfSteps ==> !Continues(e.steps[i + r.iterations - 1])
    ensures r.end == OutOfSteps ==> i + r.iterations == |e.steps| && forall k :: i <= k < |e.steps| ==> Continues(e.steps[k])
    // a normal exit: both calls succeeded; cancelled exactly when the engine still ran
    ensures r.end.Finished? ==>
              var s := e.steps[i + r.iterations - 1];
              s.performCode == CurlmOk && s.waitCode == CurlmOk && (r.end.cancelled <==> s.stillRunning != 0)
    // a failed call raises a runtime error naming it
    ensures r.end.LoopFailed? ==>
              var s := e.steps[i + r.iterations - 1];
              if s.performCode != CurlmOk
              then r.end.failure == StdFailure(ExecuteFailed + "curl_multi_perform: " + e.multiStrError(s.performCode))
              else s.waitCode != CurlmOk && r.end.failure == StdFailure(ExecuteFailed + "curl_multi_wait: " + e.multiStrError(s.waitCode))
    // each iteration starts with a perform; every wait uses the fixed timeout and no extra fds
    ensures r.iterations >= 1 ==> |r.calls| >= 1 && r.calls[0] == Perform
    ensures LoopCalls(r.calls)
    // a perform is always followed by the wait, unless that perform failed and ended the loop
    ensures WaitFollowsPerform(r.calls)
    ensures |r.calls| >= 1 && r.calls[|r.calls| - 1] == Perform ==>
              r.end.LoopFailed? && e.steps[i + r.iterations - 1].performCode != CurlmOk
    // a failed call is the last call made
    ensures r.end.LoopFailed? ==>
              |r.calls| >= 1 &&
              r.calls[|r.calls| - 1] == (if e.steps[i + r.iterations - 1].performCode != CurlmOk then Perform else WaitCall)
    // the flag is read only while the engine still runs: a completed loop ends on its wait, a cancelled one on the read
    ensures r.end.Finished? ==>
              |r.calls| >= 1 && r.calls[|r.calls| - 1] == (if r.end.cancelled then LoadFlag else WaitCall)
    decreases |e.steps| - i
  {
    if i == |e.steps| then Loop([], 0, OutOfSteps)
    else
      var s := e.steps[i];
      if s.performCode != CurlmOk then
        Loop([Perform], 1, LoopFailed(StdFailure(ExecuteFailed + "curl_multi_perform: " + e.multiStrError(s.performCode))))
      else if s.waitCode != CurlmOk then
        Loop([Perform, WaitCall], 1, LoopFailed(StdFailure(ExecuteFailed + "curl_multi_wait: " + e.multiStrError(s.waitCode))))
      else if s.stillRunning == 0 then
        Loop([Perform, WaitCall], 1, Finished(false))
      else if !s.shouldRun then
        Loop([Perform, WaitCall, LoadFlag], 1, Finished(true))
      else
        var rest := PollLoop(e, i + 1);
        IterationThenRest(rest.calls);
        Loop([Perform, WaitCall, LoadFlag] + rest.calls, rest.iterations + 1, rest.end)
  }

  // ----- draining the completion messages -----

  /** A DONE message whose transfer failed. */
  predicate FailedDone(m: Message)
  {
    m.kind == Done && m.result != CurleOk
  }

  /** The exception a failed DONE message raises. */
  function TransferFailure(e: Engine, code: int): CurlException
  {
    MakeCurlException(ExecuteFailed + e.easyStrError(code), code)
  }

  datatype Drain = Drain(calls: seq<Call>, failure: Option<CurlException>)

  /**
   * The `do { info_read; ... } while (msg)` loop from message `k`: it reads
   * until the queue answers null, unless a failed DONE message throws first.
   */
  function DrainMessages(e: Engine, k: nat): (r: Drain)
    requires k <= |e.messages|
    ensures r.failure.None? <==> forall j :: k <= j < |e.messages| ==> !FailedDone(e.messages[j])
    ensures r.failure.Some? ==>
              exists j :: k <= j < |e.messages| && FailedDone(e.messages[j])
                          && (forall m :: k <= m < j ==> !FailedDone(e.messages[m]))
                          && r.failure.value == TransferFailure(e, e.messages[j].result)
                          && |r.calls| == j - k + 1
    ensures |r.calls| >= 1 && forall j :: 0 <= j < |r.calls| ==> r.calls[j] == InfoRead
    ensures r.failure.None? ==> |r.calls| == |e.messages| - k + 1
    decreases |e.messages| - k
  {
    if k == |e.messages| then Drain([InfoRead], None)
    else if FailedDone(e.messages[k]) then Drain([InfoRead], Some(TransferFailure(e, e.messages[k].result)))
    else
      var rest := DrainMessages(e, k + 1);
      Drain([InfoRead] + rest.calls, rest.failure)
  }

  // ----- execute -----

  /** Calls made before any cleanup: no removal or reset yet, and every wait is the fixed one. */
  predicate Quiet(calls: seq<Call>)
  {
    forall k :: 0 <= k < |calls| ==>
      calls[k] != RemoveHandle && calls[k] != Reset && (calls[k].Wait? ==> calls[k] == WaitCall)
  }

  lemma QuietAppend(a: seq<Call>, b: seq<Call>)
    requires Quiet(a) && Quiet(b)
    ensures Quiet(a + b)
  {
    forall k | 0 <= k < |a + b|
      ensures (a + b)[k] == if k < |a| then a[k] else b[k - |a|]
    {
    }
  }

  lemma LoopCallsAreQuiet(calls: seq<Call>)
    requires LoopCalls(calls)
    ensures Quiet(calls)
  {
  }

  /** How `execute` tidies up on its way out: not at all (still polling), remove only, or remove then reset. */
  datatype Cleanup = NoCleanup | RemoveOnly | RemoveAndReset

  function CleanupCalls(c: Cleanup): (r: seq<Call>)
    ensures |r| <= 2 && forall k :: 0 <= k < |r| ==> r[k] == RemoveHandle || r[k] == Reset
  {
    match c
    case NoCleanup => []
    case RemoveOnly => [RemoveHandle]
    case RemoveAndReset => [RemoveHandle, Reset]
  }

  /** The calls made before cleanup, followed by the cleanup, ending as `o`. */
  function Conclude(body: seq<Call>, c: Cleanup, o: Outcome): (r: Execution)
    requires Quiet(body)
    ensures r.outcome == o
    ensures |r.calls| == |body| + |CleanupCalls(c)| && r.calls[..|body|] == body
    ensures forall k :: 0 <= k < |body| ==> r.calls[k] == body[k]
    ensures c != NoCleanup ==> r.calls[|body|] == RemoveHandle
    ensures c == RemoveAndReset ==> r.calls[|body| + 1] == Reset
    // removal and reset happen only in the cleanup, and the handle is removed at most once
    ensures forall k :: 0 <= k < |body| ==> r.calls[k] != RemoveHandle && r.calls[k] != Reset
    ensures forall i, j :: 0 <= i < j < |r.calls| && r.calls[i] == RemoveHandle ==> r.calls[j] != RemoveHandle
    ensures forall k :: 0 <= k < |r.calls| && r.calls[k].Wait? ==> r.calls[k] == WaitCall
  {
    Execution(body + CleanupCalls(c), o)
  }

  /** `execute()`. */
  function Execute(e: Engine): (r: Execution)
    ensures |r.calls| >= 1 && r.calls[0] == AddHandle
    // a failed registration is raised at once, after cleanup
    ensures e.addCode != CurlmOk ==>
              r == Execution([AddHandle, RemoveHandle, Reset],
                             Raised(StdFailure(ExecuteFailed + "curl_multi_add_handle: " + e.multiStrError(e.addCode))))
    // the body runs at least once, whatever the flag holds on entry
    ensures e.addCode == CurlmOk && |e.steps| >= 1 ==> |r.calls| >= 2 && r.calls[1] == Perform
    // the handle is removed exactly once, as the last or next-to-last call, and only then reset
    ensures r.outcome != StillPolling ==>
              && |r.calls| >= 2
              && (r.calls[|r.calls| - 1] == Reset ==> r.calls[|r.calls| - 2] == RemoveHandle)
              && (r.calls[|r.calls| - 1] == Reset || r.calls[|r.calls| - 1] == RemoveHandle)
    ensures forall k :: 0 <= k < |r.calls| - 2 ==> r.calls[k] != RemoveHandle && r.calls[k] != Reset
    ensures forall i, j :: 0 <= i < j < |r.calls| && r.calls[i] == RemoveHandle ==> r.calls[j] != RemoveHandle
    ensures r.outcome == StillPolling ==> forall k :: 0 <= k < |r.calls| ==> r.calls[k] != RemoveHandle && r.calls[k] != Reset
    // the oracle running out is the only way to keep polling
    ensures r.outcome == StillPolling <==> e.addCode == CurlmOk && PollLoop(e, 0).end.OutOfSteps?
    // a loop that ends normally is followed by the message drain, before any cleanup
    ensures e.addCode == CurlmOk && PollLoop(e, 0).end.Finished? ==>
              var prefix := [AddHandle] + PollLoop(e, 0).calls + DrainMessages(e, 0).calls;
              |prefix| <= |r.calls| && r.calls[..|prefix|] == prefix
    // ... and then by the removal, and the reset unless that removal failed
    ensures e.addCode == CurlmOk && PollLoop(e, 0).end.Finished? ==>
              r.calls == [AddHandle] + PollLoop(e, 0).calls + DrainMessages(e, 0).calls
                         + (if DrainMessages(e, 0).failure.None? && e.removeCode != CurlmOk then [RemoveHandle] else [RemoveHandle, Reset])
    // a throw from the loop skips the drain and goes straight to removal and reset
    ensures e.addCode == CurlmOk && PollLoop(e, 0).end.LoopFailed? ==>
              r.calls == [AddHandle] + PollLoop(e, 0).calls + [RemoveHandle, Reset]
    // while still polling, only the registration and the loop's calls have been made
    ensures r.outcome == StillPolling ==> r.calls == [AddHandle] + PollLoop(e, 0).calls
    // returning normally always resets the handle
    ensures r.outcome == Returned ==> r.calls[|r.calls| - 1] == Reset
    // the reset is skipped on exactly one path: a failed removal after a clean run
    ensures r.outcome != StillPolling && r.calls[|r.calls| - 1] == RemoveHandle <==>
              && e.addCode == CurlmOk
              && PollLoop(e, 0).end.Finished?
              && DrainMessages(e, 0).failure.None?
              && e.removeCode != CurlmOk
    ensures r.outcome != StillPolling && r.calls[|r.calls| - 1] == RemoveHandle ==>
              r.outcome == Raised(StdFailure(ExecuteFailed + "curl_multi_remove_handle: " + e.multiStrError(e.removeCode)))
    // every wait uses the fixed timeout and no extra descriptors
    ensures forall k :: 0 <= k < |r.calls| && r.calls[k].Wait? ==> r.calls[k] == WaitCall
  {
    var r := Conclude(CallsBefore(e), CleanupOf(e), OutcomeOf(e));
    ConcludedTrace(e, r);
    r
  }

  /** The calls of a concluded run, stage by stage: registration, the loop, the drain after a normal exit, then cleanup. */
  lemma ConcludedTrace(e: Engine, r: Execution)
    requires r == Conclude(CallsBefore(e), CleanupOf(e), OutcomeOf(e))
    ensures e.addCode == CurlmOk && PollLoop(e, 0).end.Finished? ==>
              var prefix := [AddHandle] + PollLoop(e, 0).calls + DrainMessages(e, 0).calls;
              |prefix| <= |r.calls| && r.calls[..|prefix|] == prefix
    ensures e.addCode == CurlmOk && PollLoop(e, 0).end.Finished? ==>
              r.calls == [AddHandle] + PollLoop(e, 0).calls + DrainMessages(e, 0).calls
                         + (if DrainMessages(e, 0).failure.None? && e.removeCode != CurlmOk then [RemoveHandle] else [RemoveHandle, Reset])
    ensures e.addCode == CurlmOk && PollLoop(e, 0).end.LoopFailed? ==>
              r.calls == [AddHandle] + PollLoop(e, 0).calls + [RemoveHandle, Reset]
    ensures r.outcome == StillPolling ==> r.calls == [AddHandle] + PollLoop(e, 0).calls
  {
  }

  /** The calls `execute` makes before it tidies up: registration, the loop, and the drain after a normal exit. */
  function CallsBefore(e: Engine): (r: seq<Call>)
    ensures Quiet(r) && |r| >= 1 && r[0] == AddHandle
    ensures e.addCode != CurlmOk ==> r == [AddHandle]
    ensures e.addCode == CurlmOk && |e.steps| >= 1 ==> |r| >= 2 && r[1] == Perform
    ensures e.addCode == CurlmOk && PollLoop(e, 0).end.Finished? ==>
              r == [AddHandle] + PollLoop(e, 0).calls + DrainMessages(e, 0).calls
    ensures e.addCode == CurlmOk && !PollLoop(e, 0).end.Finished? ==> r == [AddHandle] + PollLoop(e, 0).calls
  {
    if e.addCode != CurlmOk then [AddHandle]
    else
      var loop := PollLoop(e, 0);
      LoopCallsAreQuiet(loop.calls);
      QuietAppend([AddHandle], loop.calls);
      if loop.end.Finished? then
        QuietAppend([AddHandle] + loop.calls, DrainMessages(e, 0).calls);
        [AddHandle] + loop.calls + DrainMessages(e, 0).calls
      else [AddHandle] + loop.calls
  }

  /** Which cleanup each way out of `execute` performs. */
  function CleanupOf(e: Engine): (c: Cleanup)
    ensures c == NoCleanup <==> e.addCode == CurlmOk && PollLoop(e, 0).end.OutOfSteps?
    ensures c == RemoveOnly <==>
              && e.addCode == CurlmOk
              && PollLoop(e, 0).end.Finished?
              && DrainMessages(e, 0).failure.None?
              && e.removeCode != CurlmOk
    ensures e.addCode == CurlmOk && PollLoop(e, 0).end.LoopFailed? ==> c == RemoveAndReset
    ensures e.addCode == CurlmOk && PollLoop(e, 0).end.Finished? ==>
              c == if DrainMessages(e, 0).failure.None? && e.removeCode != CurlmOk then RemoveOnly else RemoveAndReset
  {
    if e.addCode != CurlmOk then RemoveAndReset
    else
      match PollLoop(e, 0).end
      case OutOfSteps => NoCleanup
      case LoopFailed(_) => RemoveAndReset
      case Finished(_) =>
        if DrainMessages(e, 0).failure.None? && e.removeCode != CurlmOk then RemoveOnly else RemoveAndReset
  }

  /** How `execute` ends on each way out. */
  function OutcomeOf(e: Engine): (o: Outcome)
    ensures o == StillPolling <==> CleanupOf(e) == NoCleanup
    ensures o == Returned ==> CleanupOf(e) == RemoveAndReset
    ensures CleanupOf(e) == RemoveOnly ==>
              o == Raised(StdFailure(ExecuteFailed + "curl_multi_remove_handle: " + e.multiStrError(e.removeCode)))
  {
    if e.addCode != CurlmOk then
      Raised(StdFailure(ExecuteFailed + "curl_multi_add_handle: " + e.multiStrError(e.addCode)))
    else
      match PollLoop(e, 0).end
      case OutOfSteps => StillPolling
      case LoopFailed(f) => Raised(f)
      case Finished(_) =>
        var drain := DrainMessages(e, 0);
        if drain.failure.Some? then Raised(CurlFailure(drain.failure.value))
        else if e.removeCode != CurlmOk then
          Raised(StdFailure(ExecuteFailed + "curl_multi_remove_handle: " + e.multiStrError(e.removeCode)))
        else Returned
  }

  // ----- properties of execute -----

  /** `execute` returns normally exactly when registration, every loop call, every message and the removal succeeded. */
  lemma ReturnsIffCleanRun(e: Engine)
    ensures Execute(e).outcome == Returned <==>
              && e.addCode == CurlmOk
              && PollLoop(e, 0).end.Finished?
              && (forall j :: 0 <= j < |e.messages| ==> !FailedDone(e.messages[j]))
              && e.removeCode == CurlmOk
  {
  }

  /**
   * Cancellation alone raises nothing: when the loop stops because the flag
   * turned false and no failed transfer is reported, `execute` returns
   * normally (after removing and resetting the handle).
   */
  lemma CancellationRaisesNothing(e: Engine)
    requires e.addCode == CurlmOk
    requires PollLoop(e, 0).end == Finished(true)
    requires forall j :: 0 <= j < |e.messages| ==> !FailedDone(e.messages[j])
    requires e.removeCode == CurlmOk
    ensures Execute(e).outcome == Returned
    ensures Execute(e).calls[|Execute(e).calls| - 2..] == [RemoveHandle, Reset]
  {
  }

  /**
   * A flag that is already false on entry does not prevent the first
   * iteration: one perform and one wait run, then the condition reads the
   * flag and the loop stops.
   */
  lemma CancelledOnEntryRunsOnce(e: Engine)
    requires e.addCode == CurlmOk
    requires |e.steps| >= 1
    requires e.steps[0].performCode == CurlmOk && e.steps[0].waitCode == CurlmOk
    requires e.steps[0].stillRunning != 0 && !e.steps[0].shouldRun
    ensures Execute(e).calls[..4] == [AddHandle, Perform, WaitCall, LoadFlag]
    ensures forall k :: 4 <= k < |Execute(e).calls| ==> Execute(e).calls[k] != Perform && Execute(e).calls[k] != LoadFlag
  {
    assert PollLoop(e, 0) == Loop([Perform, WaitCall, LoadFlag], 1, Finished(true));
    var drain := DrainMessages(e, 0).calls;
    var tail := CleanupCalls(CleanupOf(e));
    assert CallsBefore(e) == [AddHandle, Perform, WaitCall, LoadFlag] + drain;
    assert Execute(e).calls == CallsBefore(e) + tail;
    SingleIterationShape(drain, tail);
  }

  /** After one iteration, draining and cleaning up make no further perform or flag read. */
  lemma SingleIterationShape(drain: seq<Call>, tail: seq<Call>)
    requires forall k :: 0 <= k < |drain| ==> drain[k] == InfoRead
    requires forall k :: 0 <= k < |tail| ==> tail[k] == RemoveHandle || tail[k] == Reset
    ensures ([AddHandle, Perform, WaitCall, LoadFlag] + drain + tail)[..4] == [AddHandle, Perform, WaitCall, LoadFlag]
    ensures forall k :: 4 <= k < |[AddHandle, Perform, WaitCall, LoadFlag] + drain + tail| ==>
              ([AddHandle, Perform, WaitCall, LoadFlag] + drain + tail)[k] != Perform
              && ([AddHandle, Perform, WaitCall, LoadFlag] + drain + tail)[k] != LoadFlag
  {
    var calls := [AddHandle, Perform, WaitCall, LoadFlag] + drain + tail;
    forall k | 4 <= k < |calls|
      ensures calls[k] != Perform && calls[k] != LoadFlag
    {
      if k < 4 + |drain| {
        assert calls[k] == drain[k - 4];
      } else {
        assert calls[k] == tail[k - 4 - |drain|];
      }
    }
  }

  /**
   * A completed transfer whose DONE message reports a failure raises a
   * `Curl::CurlException` whose message is the fixed prefix plus the engine's
   * text and whose code is the engine's result code; the first such message wins.
   */
  lemma FailedTransferRaisesCurlException(e: Engine, j: nat)
    requires e.addCode == CurlmOk
    requires PollLoop(e, 0).end.Finished?
    requires j < |e.messages| && FailedDone(e.messages[j])
    requires forall m :: 0 <= m < j ==> !FailedDone(e.messages[m])
    ensures Execute(e).outcome.Raised?
    ensures Execute(e).outcome.failure.CurlFailure?
    ensures What(Execute(e).outcome.failure.exception) == ExecuteFailed + e.easyStrError(e.messages[j].result)
    ensures ResponseCode(Execute(e).outcome.failure.exception) == e.messages[j].result
    ensures Execute(e).calls[|Execute(e).calls| - 2..] == [RemoveHandle, Reset]
  {
    var d := DrainMessages(e, 0);
    assert d.failure.Some?;
    var j' :| 0 <= j' < |e.messages| && FailedDone(e.messages[j'])
              && (forall m :: 0 <= m < j' ==> !FailedDone(e.messages[m]))
              && d.failure.value == TransferFailure(e, e.messages[j'].result);
    if j' != j {
      assert false;
    }
    assert OutcomeOf(e) == Raised(CurlFailure(TransferFailure(e, e.messages[j].result)));
    assert CleanupOf(e) == RemoveAndReset;
    EndsWithRemoveAndReset(CallsBefore(e));
  }

  /** Removing then resetting leaves those two as the last calls. */
  lemma EndsWithRemoveAndReset(body: seq<Call>)
    ensures (body + CleanupCalls(RemoveAndReset))[|body|..] == [RemoveHandle, Reset]
  {
    assert (body + [RemoveHandle, Reset])[|body|..] == [RemoveHandle, Reset];
  }

  /** A call that fails inside the loop is rethrown as it was raised, after removal and reset. */
  lemma LoopFailureRethrown(e: Engine)
    requires e.addCode == CurlmOk
    requires PollLoop(e, 0).end.LoopFailed?
    ensures Execute(e).outcome == Raised(PollLoop(e, 0).end.failure)
    ensures Execute(e).outcome.failure.StdFailure?
    ensures Execute(e).calls[|Execute(e).calls| - 2..] == [RemoveHandle, Reset]
  {
    var body := [AddHandle] + PollLoop(e, 0).calls;
    assert Execute(e).calls == body + CleanupCalls(RemoveAndReset);
    EndsWithRemoveAndReset(body);
    assert OutcomeOf(e) == Raised(PollLoop(e, 0).end.failure);
  }

  /** Each iteration performs exactly once and makes at most three calls. */
  lemma {:induction false} PerformsOncePerIteration(e: Engine, i: nat)
    requires i <= |e.steps|
    ensures |PollLoop(e, i).calls| <= 3 * PollLoop(e, i).iterations
    ensures CountPerforms(PollLoop(e, i).calls) == PollLoop(e, i).iterations
    decreases |e.steps| - i
  {
    if i < |e.steps| {
      var s := e.steps[i];
      if s.performCode == CurlmOk && s.waitCode == CurlmOk && s.stillRunning != 0 && s.shouldRun {
        var rest := PollLoop(e, i + 1);
        PerformsOncePerIteration(e, i + 1);
        CountPerformsAppend([Perform, WaitCall, LoadFlag], rest.calls);
        assert CountPerforms([LoadFlag]) == 0 by { assert [LoadFlag][1..] == []; }
        assert CountPerforms([WaitCall, LoadFlag]) == 0 by { assert [WaitCall, LoadFlag][1..] == [LoadFlag]; }
        assert [Perform, WaitCall, LoadFlag][1..] == [WaitCall, LoadFlag];
      } else {
        assert CountPerforms([LoadFlag]) == 0 by { assert [LoadFlag][1..] == []; }
        assert CountPerforms([WaitCall, LoadFlag]) == 0 by { assert [WaitCall, LoadFlag][1..] == [LoadFlag]; }
        assert CountPerforms([WaitCall]) == 0 by { assert [WaitCall][1..] == []; }
        assert [Perform, WaitCall, LoadFlag][1..] == [WaitCall, LoadFlag];
        assert [Perform, WaitCall][1..] == [WaitCall];
        assert [Perform][1..] == [];
      }
    }
  }

  /** The number of `Perform` calls in a call sequence. */
  function CountPerforms(calls: seq<Call>): nat
    decreases |calls|
  {
    if |calls| == 0 then 0 else (if calls[0] == Perform then 1 else 0) + CountPerforms(calls[1..])
  }

  lemma {:induction false} CountPerformsAppend(a: seq<Call>, b: seq<Call>)
    ensures CountPerforms(a + b) == CountPerforms(a) + CountPerforms(b)
    decreases |a|
  {
    if |a| == 0 {
      assert a + b == b;
    } else {
      assert (a + b)[1..] == a[1..] + b;
      CountPerformsAppend(a[1..], b);
    }
  }
}

=== FILE: observation.dfy ===
/**
 * What a caller of a verb can see of a run: the success and error callback
 * invocations, and which of them reach callbacks of the caller's own rather
 * than the default no-ops of `PostRequestParameters` (include/IURLRequest.hpp).
 */
module Observation {
  import opened UrlRequest

  /** One callback invocation. */
  datatype Callback = OnSuccess(response: string) | OnError(message: string, code: int)

  /** An invocation reaches the caller when the callback it calls is the caller's own, not a default no-op. */
  predicate Reaches(cb: Callback, onSuccess: SuccessCallback, onError: ErrorCallback)
  {
    match cb
    case OnSuccess(_) => onSuccess.UserSuccess?
    case OnError(_, _) => onError.UserError?
  }

  /** One invocation, kept when it reaches the caller. */
  function Kept(cb: Callback, onSuccess: SuccessCallback, onError: ErrorCallback): seq<Callback>
  {
    if Reaches(cb, onSuccess, onError) then [cb] else []
  }

  /** The invocations that reach the caller, kept in the order they happen. */
  function KeepReaching(cbs: seq<Callback>, onSuccess: SuccessCallback, onError: ErrorCallback): seq<Callback>
    decreases |cbs|
  {
    if |cbs| == 0 then []
    else Kept(cbs[0], onSuccess, onError) + KeepReaching(cbs[1..], onSuccess, onError)
  }

  lemma {:induction false} KeepReachingFacts(cbs: seq<Callback>, onSuccess: SuccessCallback, onError: ErrorCallback)
    ensures |KeepReaching(cbs, onSuccess, onError)| <= |cbs|
    ensures forall c :: c in KeepReaching(cbs, onSuccess, onError) <==> c in cbs && Reaches(c, onSuccess, onError)
    ensures (forall k :: 0 <= k < |cbs| ==> Reaches(cbs[k], onSuccess, onError)) ==> KeepReaching(cbs, onSuccess, onError) == cbs
    decreases |cbs|
  {
    if |cbs| > 0 {
      KeepReachingFacts(cbs[1..], onSuccess, onError);
      assert cbs == [cbs[0]] + cbs[1..];
      assert forall c :: c in cbs <==> c == cbs[0] || c in cbs[1..];
    }
  }

  /** Filtering a sequence that starts with `x` keeps `x` when it reaches the caller, then filters the rest. */
  lemma KeepReachingCons(x: Callback, t: seq<Callback>, onSuccess: SuccessCallback, onError: ErrorCallback)
    ensures KeepReaching([x] + t, onSuccess, onError) == Kept(x, onSuccess, onError) + KeepReaching(t, onSuccess, onError)
  {
    assert ([x] + t)[1..] == t;
  }

  lemma Regroup(head: seq<Callback>, restA: seq<Callback>, restB: seq<Callback>, whole: seq<Callback>, first: seq<Callback>)
    requires whole == head + (restA + restB) && first == head + restA
    ensures whole == first + restB
  {
  }

  lemma {:induction false} KeepReachingDistributes(a: seq<Callback>, b: seq<Callback>, onSuccess: SuccessCallback, onError: ErrorCallback)
    ensures KeepReaching(a + b, onSuccess, onError) == KeepReaching(a, onSuccess, onError) + KeepReaching(b, onSuccess, onError)
    decreases |a|
  {
    if |a| == 0 {
      assert a + b == b;
    } else {
      var x, t := a[0], a[1..];
      KeepReachingDistributes(t, b, onSuccess, onError);
      assert a + b == [x] + (t + b);
      KeepReachingCons(x, t + b, onSuccess, onError);
      assert a == [x] + t;
      KeepReachingCons(x, t, onSuccess, onError);
      Regroup(Kept(x, onSuccess, onError), KeepReaching(t, onSuccess, onError), KeepReaching(b, onSuccess, onError),
              KeepReaching(a + b, onSuccess, onError), KeepReaching(a, onSuccess, onError));
    }
  }
}

=== FILE: request_outcome.dfy ===
/**
 * What both verb facades share (src/HTTPRequest.cpp, src/UNIXSocketRequest.cpp):
 * the builder configuration a verb call produces, and the translation of the
 * transfer's outcome into success and error callback invocations by the
 * `try { ...execute(); onSuccess(req.response()); } catch` pattern.
 */
module RequestOutcome {
  import opened Basics
  import opened Curl
  import opened CurlHandler
  import opened Security
  import opened UrlRequest
  import opened Observation
  import MultiHandler
  import CurlWrapper

  /** `NOT_USED`: the code passed to `onError` when no response code applies. */
  const NotUsed: int := -1

  /** The facade verbs. */
  datatype Verb = Download | Post | Get | Put | Patch | Delete

  /** The request builders; a download is a GET written to a file. */
  datatype RequestKind = GetRequest | PostRequest | PutRequest | PatchRequest | DeleteRequest

  function KindOf(verb: Verb): RequestKind
  {
    match verb
    case Download => GetRequest
    case Get => GetRequest
    case Post => PostRequest
    case Put => PutRequest
    case Patch => PatchRequest
    case Delete => DeleteRequest
  }

  /** Verbs that send a body. */
  predicate SendsBody(verb: Verb)
  {
    verb == Post || verb == Put || verb == Patch
  }

  /**
   * How the handler factory is called: with no arguments, with the caller's
   * handler type and flag, or with the defaults of the overload it delegates to.
   */
  datatype Factory = DefaultFactory | Create(handlerType: HandlerType, shouldRun: FlagCell) | CreateWithDeclaredDefaults

  /** The builder calls of one verb call, as a configuration record; `None` means the call is not made. */
  datatype RequestConfig = RequestConfig(
    kind: RequestKind,
    url: string,
    unixSocketPath: Option<string>,
    postData: Option<string>,
    headers: Option<set<string>>,
    userAgent: Option<string>,
    outputFile: string,
    secure: SecureCommunication,
    factory: Factory
  )

  /** The outcome of building and executing a request: its response, a throw, or no return while polling. */
  datatype TransferResult = Completed(response: string) | Threw(failure: Failure) | Pending

  /** What a verb call did: the builder configuration (if it got that far) and the callbacks it invoked. */
  datatype Invocation = Invocation(config: Option<RequestConfig>, callbacks: seq<Callback>)

  /** `dump()` of a JSON document: its text, or the `std::exception` it throws. */
  datatype DumpResult = Dumped(text: string) | DumpThrew(what: string)

  /** The two catch clauses: a `Curl::CurlException` keeps its code, anything else reports `NOT_USED`. */
  function ErrorReport(f: Failure): (cb: Callback)
    ensures cb.OnError?
    ensures cb.message == FailureMessage(f)
    ensures f.CurlFailure? ==> cb.code == ResponseCode(f.exception)
    ensures f.StdFailure? ==> cb.code == NotUsed
  {
    match f
    case CurlFailure(e) => OnError(What(e), ResponseCode(e))
    case StdFailure(w) => OnError(w, NotUsed)
  }

  /**
   * The callbacks invoked after `execute` ends as `result` says. `onSuccess`
   * runs inside the try, only after a normal return and only for verbs that
   * report success; if it throws, the catch reports that to `onError`.
   */
  function Report(result: TransferResult, notifySuccess: bool, onSuccess: SuccessCallback): (cbs: seq<Callback>)
    // success is reported only after a normal return, with the response, first
    ensures forall k :: 0 <= k < |cbs| && cbs[k].OnSuccess? ==>
              k == 0 && notifySuccess && result == Completed(cbs[k].response)
    ensures result.Completed? && notifySuccess ==> |cbs| >= 1 && cbs[0] == OnSuccess(result.response)
    // a throw from execute gives exactly one error callback and nothing else
    ensures result.Threw? ==> cbs == [ErrorReport(result.failure)]
    // the only other error report is a throwing success callback
    ensures result.Completed? ==>
              |cbs| <= 2 && (|cbs| == 2 <==> notifySuccess && onSuccess.UserSuccess? && onSuccess.throws.Some?)
    // the throw from onSuccess goes through the same catch clauses as one from execute
    ensures |cbs| == 2 ==> onSuccess.UserSuccess? && onSuccess.throws.Some? && cbs[1] == ErrorReport(onSuccess.throws.value)
    // a verb that does not report success invokes nothing after a normal return
    ensures result.Completed? && !notifySuccess ==> cbs == []
    // no return, no callback
    ensures result.Pending? ==> cbs == []
  {
    match result
    case Pending => []
    case Threw(f) => [ErrorReport(f)]
    case Completed(response) =>
      if !notifySuccess then []
      else if onSuccess.UserSuccess? && onSuccess.throws.Some? then [OnSuccess(response), ErrorReport(onSuccess.throws.value)]
      else [OnSuccess(response)]
  }

  /** A `Curl::CurlException` thrown by the caller's `onSuccess` reaches `onError` with its own code. */
  lemma ThrowingSuccessKeepsCode(response: string, id: nat, e: CurlException)
    ensures Report(Completed(response), true, UserSuccess(id, Some(CurlFailure(e))))
            == [OnSuccess(response), OnError(What(e), ResponseCode(e))]
  {
  }

  /** The invocations a caller can observe: those that reach a callback of its own, in the order they happen. */
  function Observed(cbs: seq<Callback>, onSuccess: SuccessCallback, onError: ErrorCallback): (r: seq<Callback>)
    ensures |r| <= |cbs|
    ensures forall k :: 0 <= k < |r| ==> r[k] in cbs && Reaches(r[k], onSuccess, onError)
    ensures forall k :: 0 <= k < |cbs| && Reaches(cbs[k], onSuccess, onError) ==> cbs[k] in r
    ensures (forall k :: 0 <= k < |cbs| ==> Reaches(cbs[k], onSuccess, onError)) ==> r == cbs
  {
    KeepReachingFacts(cbs, onSuccess, onError);
    KeepReaching(cbs, onSuccess, onError)
  }

  /** Observation keeps order: what is observed of two runs in sequence is what is observed of each, in sequence. */
  lemma ObservedDistributes(a: seq<Callback>, b: seq<Callback>, onSuccess: SuccessCallback, onError: ErrorCallback)
    ensures Observed(a + b, onSuccess, onError) == Observed(a, onSuccess, onError) + Observed(b, onSuccess, onError)
  {
    KeepReachingDistributes(a, b, onSuccess, onError);
  }

  /** With the default callbacks nothing is observable, whatever the outcome. */
  lemma DefaultCallbacksAreSilent(result: TransferResult, notifySuccess: bool)
    ensures Observed(Report(result, notifySuccess, DefaultPostRequestParameters.onSuccess),
                     DefaultPostRequestParameters.onSuccess, DefaultPostRequestParameters.onError) == []
  {
    var cbs := Report(result, notifySuccess, NoOpSuccess);
    var onError := DefaultPostRequestParameters.onError;
    assert |cbs| <= 1;
    if |cbs| == 1 {
      assert !Reaches(cbs[0], NoOpSuccess, onError);
      assert KeepReaching(cbs[1..], NoOpSuccess, onError) == [];
    }
    assert KeepReaching(cbs, NoOpSuccess, onError) == [];
  }

  /** The serialized body of a string or JSON alternative: the string is passed unchanged. */
  function BodyText(data: Body, dump: JsonDoc -> DumpResult): (r: DumpResult)
    ensures data.TextBody? ==> r == Dumped(data.text)
    ensures data.JsonBody? ==> r == dump(data.json)
  {
    match data
    case TextBody(text) => Dumped(text)
    case JsonBody(json) => dump(json)
  }

  /** How a multi-handler `execute` ending reaches the facade, with the response the buffer then holds. */
  function FromMultiOutcome(o: MultiHandler.Outcome, response: string): (r: TransferResult)
    ensures o.Returned? <==> r == Completed(response)
    ensures o.Raised? <==> r.Threw?
    ensures o.Raised? ==> r.failure == o.failure
    ensures o.StillPolling? <==> r == Pending
  {
    match o
    case Returned => Completed(response)
    case Raised(f) => Threw(f)
    case StillPolling => Pending
  }

  /** How the wrapper's `execute` ending reaches the facade: its `std::runtime_error`, or the buffered response. */
  function FromWrapperExecution(x: CurlWrapper.WrapperExecution, response: string): (r: TransferResult)
    ensures x.error.Some? ==> r == Threw(StdFailure(x.error.value))
    ensures x.error.None? <==> r == Completed(response)
  {
    match x.error
    case Some(w) => Threw(StdFailure(w))
    case None => Completed(response)
  }
}

=== FILE: secure_communication.dfy ===
/**
 * The credentials builder of include/secureCommunication.hpp. Each setter
 * returns the updated object, so chained calls are function composition.
 */
module Security {

  datatype SecureCommunication = SecureCommunication(
    caRootCertificate: string,
    sslCertificate: string,
    sslKey: string,
    basicAuthCreds: string
  )

  /** The constructor: only the CA path is set. */
  function NewSecureCommunication(caRootCertificate: string): (s: SecureCommunication)
    ensures GetCARootCert(s) == caRootCertificate
    ensures GetBasicAuthCreds(s) == "" && GetSslCertificate(s) == "" && GetSslKey(s) == ""
  {
    SecureCommunication(caRootCertificate, "", "", "")
  }

  function GetCARootCert(s: SecureCommunication): string { s.caRootCertificate }
  function GetBasicAuthCreds(s: SecureCommunication): string { s.basicAuthCreds }
  function GetSslCertificate(s: SecureCommunication): string { s.sslCertificate }
  function GetSslKey(s: SecureCommunication): string { s.sslKey }

  /** `setClientAuth(cert, key)`: sets the certificate and key, nothing else. */
  function SetClientAuth(s: SecureCommunication, sslCertificate: string, sslKey: string): (r: SecureCommunication)
    ensures GetSslCertificate(r) == sslCertificate && GetSslKey(r) == sslKey
    ensures GetCARootCert(r) == GetCARootCert(s) && GetBasicAuthCreds(r) == GetBasicAuthCreds(s)
  {
    s.(sslCertificate := sslCertificate, sslKey := sslKey)
  }

  /** `setBasicAuth(creds)`: sets the basic-auth credentials, nothing else. */
  function SetBasicAuth(s: SecureCommunication, basicAuthCreds: string): (r: SecureCommunication)
    ensures GetBasicAuthCreds(r) == basicAuthCreds
    ensures GetCARootCert(r) == GetCARootCert(s) && GetSslCertificate(r) == GetSslCertificate(s) && GetSslKey(r) == GetSslKey(s)
  {
    s.(basicAuthCreds := basicAuthCreds)
  }

  /**
   * Both setters applied to a fresh object leave all four fields as given,
   * and the order of the two calls does not matter.
   */
  lemma BothSettersCompose(ca: string, creds: string, cert: string, key: string)
    ensures var s := SetClientAuth(SetBasicAuth(NewSecureCommunication(ca), creds), cert, key);
            && GetCARootCert(s) == ca && GetBasicAuthCreds(s) == creds
            && GetSslCertificate(s) == cert && GetSslKey(s) == key
    ensures SetClientAuth(SetBasicAuth(NewSecureCommunication(ca), creds), cert, key)
            == SetBasicAuth(SetClientAuth(NewSecureCommunication(ca), cert, key), creds)
  {
  }

  /** Setting a field twice keeps only the last value. */
  lemma LastSetterWins(s: SecureCommunication, creds1: string, creds2: string, cert1: string, key1: string, cert2: string, key2: string)
    ensures SetBasicAuth(SetBasicAuth(s, creds1), creds2) == SetBasicAuth(s, creds2)
    ensures SetClientAuth(SetClientAuth(s, cert1, key1), cert2, key2) == SetClientAuth(s, cert2, key2)
  {
  }
}

=== FILE: unix_socket_request.dfy ===
/**
 * The UNIX-socket facade of src/UNIXSocketRequest.cpp. It takes its arguments
 * one by one, wires the URL's socket path into the builder, never passes the
 * header set or a user agent, and its JSON overloads serialize the body and
 * delegate to the string overloads.
 */
module UnixSocketRequest {
  import opened Basics
  import opened Curl
  import opened CurlHandler
  import opened Security
  import opened UrlRequest
  import opened RequestOutcome
  import opened Observation

  /** The builder configuration of a UNIX-socket call made with `factory`. */
  function UnixConfig(verb: Verb, url: Url, postData: Option<string>, outputFile: string,
                      secure: SecureCommunication, factory: Factory): RequestConfig
  {
    RequestConfig(KindOf(verb), GetUrl(url), Some(UnixSocketPath(url)), postData, None, None, outputFile, secure, factory)
  }

  /**
   * The string overloads (and `download`, `get`, `delete_`, which take no
   * body): `data` is used by POST, PUT and PATCH only; `factory` is how the
   * handler is obtained, which `delete_` fixes to the default.
   */
  function UnixStringCall(verb: Verb, url: Url, data: string, onSuccess: SuccessCallback, outputFile: string,
                          httpHeaders: set<string>, secure: SecureCommunication, factory: Factory,
                          transfer: RequestConfig -> TransferResult): (r: Invocation)
    ensures r.config.Some?
    // URL text and socket path come from the URL object; headers and user agent are never set
    ensures r.config.value.url == GetUrl(url) && r.config.value.unixSocketPath == Some(UnixSocketPath(url))
    ensures r.config.value.headers.None? && r.config.value.userAgent.None?
    ensures r.config.value.kind == KindOf(verb) && r.config.value.outputFile == outputFile && r.config.value.secure == secure
    ensures r.config.value.postData == if SendsBody(verb) then Some(data) else None
    ensures r.config.value.factory == if verb == Delete then DefaultFactory else factory
    ensures r.callbacks == Report(transfer(r.config.value), verb != Download, onSuccess)
  {
    var config := UnixConfig(verb, url, if SendsBody(verb) then Some(data) else None, outputFile, secure,
                             if verb == Delete then DefaultFactory else factory);
    Invocation(Some(config), Report(transfer(config), verb != Download, onSuccess))
  }

  /**
   * A UNIX-socket verb call with either body alternative. A string body goes
   * straight to the string overload with the caller's handler type and flag;
   * a JSON body is dumped and passed to the string overload WITHOUT them, so
   * that overload's declared defaults apply; a dump that throws is reported
   * as an error with `NOT_USED`.
   */
  function UnixCall(verb: Verb, url: Url, body: Body, onSuccess: SuccessCallback, outputFile: string,
                    httpHeaders: set<string>, secure: SecureCommunication, handlerType: HandlerType, shouldRun: FlagCell,
                    dump: JsonDoc -> DumpResult, transfer: RequestConfig -> TransferResult): (r: Invocation)
    ensures !(SendsBody(verb) && body.JsonBody?) ==>
              r == UnixStringCall(verb, url, if body.TextBody? then body.text else "", onSuccess, outputFile,
                                  httpHeaders, secure, Create(handlerType, shouldRun), transfer)
    ensures SendsBody(verb) && body.JsonBody? && dump(body.json).Dumped? ==>
              r == UnixStringCall(verb, url, dump(body.json).text, onSuccess, outputFile,
                                  httpHeaders, secure, CreateWithDeclaredDefaults, transfer)
    ensures SendsBody(verb) && body.JsonBody? && dump(body.json).DumpThrew? ==>
              r == Invocation(None, [OnError(dump(body.json).what, NotUsed)])
  {
    if SendsBody(verb) && body.JsonBody? then
      match dump(body.json)
      case DumpThrew(w) => Invocation(None, [OnError(w, NotUsed)])
      case Dumped(text) =>
        UnixStringCall(verb, url, text, onSuccess, outputFile, httpHeaders, secure, CreateWithDeclaredDefaults, transfer)
    else
      UnixStringCall(verb, url, if body.TextBody? then body.text else "", onSuccess, outputFile,
                     httpHeaders, secure, Create(handlerType, shouldRun), transfer)
  }

  /** The header set never reaches the builder: two calls differing only in their headers build the same request. */
  lemma HeadersNeverUsed(verb: Verb, url: Url, body: Body, onSuccess: SuccessCallback, outputFile: string,
                         h1: set<string>, h2: set<string>, secure: SecureCommunication, handlerType: HandlerType,
                         shouldRun: FlagCell, dump: JsonDoc -> DumpResult, transfer: RequestConfig -> TransferResult)
    ensures UnixCall(verb, url, body, onSuccess, outputFile, h1, secure, handlerType, shouldRun, dump, transfer)
            == UnixCall(verb, url, body, onSuccess, outputFile, h2, secure, handlerType, shouldRun, dump, transfer)
  {
  }

  /**
   * The JSON overloads drop the caller's handler type and flag: their
   * requests are the same whatever the caller asked for.
   */
  lemma JsonOverloadIgnoresHandlerType(verb: Verb, url: Url, json: JsonDoc, onSuccess: SuccessCallback, outputFile: string,
                                       headers: set<string>, secure: SecureCommunication,
                                       t1: HandlerType, f1: FlagCell, t2: HandlerType, f2: FlagCell,
                                       dump: JsonDoc -> DumpResult, transfer: RequestConfig -> TransferResult)
    requires SendsBody(verb)
    ensures UnixCall(verb, url, JsonBody(json), onSuccess, outputFile, headers, secure, t1, f1, dump, transfer)
            == UnixCall(verb, url, JsonBody(json), onSuccess, outputFile, headers, secure, t2, f2, dump, transfer)
    ensures UnixCall(verb, url, JsonBody(json), onSuccess, outputFile, headers, secure, t1, f1, dump, transfer).config.Some? ==>
              UnixCall(verb, url, JsonBody(json), onSuccess, outputFile, headers, secure, t1, f1, dump, transfer).config.value.factory
              == CreateWithDeclaredDefaults
  {
  }

  /** Over a socket URL, the builder gets exactly the socket path and URL the caller built it from. */
  lemma SocketPathWired(verb: Verb, sock: string, urlText: string, body: Body, onSuccess: SuccessCallback, outputFile: string,
                        headers: set<string>, secure: SecureCommunication, handlerType: HandlerType, shouldRun: FlagCell,
                        dump: JsonDoc -> DumpResult, transfer: RequestConfig -> TransferResult)
    requires UnixCall(verb, HttpUnixSocketUrl(sock, urlText), body, onSuccess, outputFile, headers, secure,
                      handlerType, shouldRun, dump, transfer).config.Some?
    ensures var c := UnixCall(verb, HttpUnixSocketUrl(sock, urlText), body, onSuccess, outputFile, headers, secure,
                              handlerType, shouldRun, dump, transfer).config.value;
            c.unixSocketPath == Some(sock) && c.url == urlText
  {
  }

  /** A UNIX download reports only errors, and a CurlException keeps its code. */
  lemma DownloadReportsOnlyErrors(url: Url, outputFile: string, headers: set<string>, secure: SecureCommunication,
                                  handlerType: HandlerType, shouldRun: FlagCell,
                                  dump: JsonDoc -> DumpResult, transfer: RequestConfig -> TransferResult, e: CurlException)
    ensures forall k :: 0 <= k < |UnixCall(Download, url, TextBody(""), NoOpSuccess, outputFile, headers, secure,
                                           handlerType, shouldRun, dump, transfer).callbacks| ==>
              UnixCall(Download, url, TextBody(""), NoOpSuccess, outputFile, headers, secure,
                       handlerType, shouldRun, dump, transfer).callbacks[k].OnError?
    ensures var r := UnixCall(Download, url, TextBody(""), NoOpSuccess, outputFile, headers, secure,
                              handlerType, shouldRun, dump, transfer);
            transfer(r.config.value) == Threw(CurlFailure(e)) ==> r.callbacks == [OnError(What(e), ResponseCode(e))]
  {
  }
}

=== FILE: url_request.dfy ===
/**
 * The request vocabulary of include/IURLRequest.hpp: URL variants, the
 * default header set and the three parameter bundles with their defaults.
 */
module UrlRequest {
  import opened Basics
  import opened Curl
  import opened CurlHandler
  import opened Security

  datatype SocketType = SocketUnix | SocketTcp

  /** `URL`: socket type, URL text and socket path (empty unless set). */
  datatype Url = Url(socketType: SocketType, url: string, sock: string)

  /** `HttpURL(url)`: TCP, with no socket path. */
  function HttpUrl(url: string): (u: Url)
    ensures GetSocketType(u) == SocketTcp && GetUrl(u) == url && UnixSocketPath(u) == ""
  {
    Url(SocketTcp, url, "")
  }

  /** `HttpUnixSocketURL(sock, url)`: UNIX, with both path and URL. */
  function HttpUnixSocketUrl(sock: string, url: string): (u: Url)
    ensures GetSocketType(u) == SocketUnix && GetUrl(u) == url && UnixSocketPath(u) == sock
  {
    Url(SocketUnix, url, sock)
  }

  function UnixSocketPath(u: Url): string { u.sock }
  function GetUrl(u: Url): string { u.url }
  function GetSocketType(u: Url): SocketType { u.socketType }

  /** The socket type tells the two constructors apart, and each keeps its arguments. */
  lemma UrlVariantsDistinct(url1: string, sock: string, url2: string)
    ensures HttpUrl(url1) != HttpUnixSocketUrl(sock, url2)
    ensures HttpUnixSocketUrl(sock, url2) == Url(SocketUnix, url2, sock)
  {
    assert GetSocketType(HttpUrl(url1)) == SocketTcp;
  }

  // ----- headers -----

  const ContentTypeJson: string := "Content-Type: application/json"
  const AcceptJson: string := "Accept: application/json"
  const AcceptCharsetUtf8: string := "Accept-Charset: utf-8"

  /** `DEFAULT_HEADERS`. */
  const DefaultHeaders: set<string> := {ContentTypeJson, AcceptJson, AcceptCharsetUtf8}

  /** The default set holds exactly three distinct headers. */
  lemma DefaultHeadersAreThree()
    ensures |DefaultHeaders| == 3
    ensures forall h :: h in DefaultHeaders <==> h == ContentTypeJson || h == AcceptJson || h == AcceptCharsetUtf8
  {
    assert ContentTypeJson[0] != AcceptJson[0] && ContentTypeJson[0] != AcceptCharsetUtf8[0];
    assert AcceptJson[6] != AcceptCharsetUtf8[6];
  }

  /** An `unordered_set` built from an initializer list of header lines. */
  function HeaderSet(lines: seq<string>): (s: set<string>)
    ensures forall h :: h in s <==> h in lines
    ensures |s| <= |lines|
    decreases |lines|
  {
    if |lines| == 0 then {} else {lines[0]} + HeaderSet(lines[1..])
  }

  /** Identical header lines collapse to one. */
  lemma DuplicateHeadersCollapse(h: string)
    ensures HeaderSet([h, h]) == {h}
    ensures |HeaderSet([h, h])| == 1
  {
    assert forall x :: x in HeaderSet([h, h]) <==> x == h;
  }

  // ----- parameter bundles -----

  /** A JSON document; only its serialization matters here. */
  datatype JsonDoc = JsonDoc(id: nat)

  /** `std::variant<std::string, nlohmann::json>`. */
  datatype Body = TextBody(text: string) | JsonBody(json: JsonDoc)

  /** `RequestParameters`: the "what". */
  datatype RequestParameters = RequestParameters(
    url: Url,
    data: Body,
    secureCommunication: SecureCommunication,
    httpHeaders: set<string>
  )

  /** The credentials of a request that names none: every field empty. */
  const NoCredentials: SecureCommunication := NewSecureCommunication("")

  /** `RequestParameters {.url = url}`. */
  function DefaultRequestParameters(url: Url): (p: RequestParameters)
    ensures p.url == url
    ensures p.data == TextBody("")
    ensures p.httpHeaders == DefaultHeaders
    ensures p.secureCommunication == NoCredentials
  {
    RequestParameters(url, TextBody(""), NoCredentials, DefaultHeaders)
  }

  /** The identity of the atomic flag cell a caller passes; the default binds to a literal `true`. */
  datatype FlagCell = LiteralTrue | CallerFlag(id: nat)

  /** `ConfigurationParameters`: the "how". */
  datatype ConfigurationParameters = ConfigurationParameters(handlerType: HandlerType, shouldRun: FlagCell, userAgent: string)

  const DefaultConfigurationParameters: ConfigurationParameters := ConfigurationParameters(Single, LiteralTrue, "")

  /**
   * A success callback: the default no-op, or the caller's, which may throw a
   * `Curl::CurlException` or another `std::exception`.
   */
  datatype SuccessCallback = NoOpSuccess | UserSuccess(id: nat, throws: Option<Failure>)

  /** An error callback: the default no-op, or the caller's. */
  datatype ErrorCallback = NoOpError | UserError(id: nat)

  /** `PostRequestParameters`: the "what to do after". */
  datatype PostRequestParameters = PostRequestParameters(onSuccess: SuccessCallback, onError: ErrorCallback, outputFile: string)

  const DefaultPostRequestParameters: PostRequestParameters := PostRequestParameters(NoOpSuccess, NoOpError, "")
}
